=== FILE: README.md ===
# Post publication notifications and subscriptions, modelled in Dafny

This project models the core of a small content-publishing application.
Websites publish posts and users subscribe to websites. When a post is
published, every subscriber should get one email about it. The model covers
the following parts of the code:

- **The fanout listener** (`SendPostPublishedEmail::handle`). It reads a
  website's subscriber list through `Cache::remember("website_{id}_users", 60, …)`.
  It skips users already recorded in the `post_email_recipients` ledger. It
  sends to the others and records each one after its send.
- **The ledger methods of `Post`** (`hasUserReceivedEmail`, `markEmailSentTo`).
- **The request validators** (`SubmitPostData::fromArray`, `SubscribeData::fromArray`).
  They check fields in order and report only the first failure. They use PHP
  `empty()` semantics, and the typed constructor coerces values afterwards.
- **The use cases** (`PostSubmitUseCase`, `SubscribeUseCase`). They are state
  transitions on an immutable store. Every error leaves the store unchanged.
- **The repositories**: `findOrCreate`, `isSubscribed`/`subscribe`, and post
  create/find/update/delete.
- **The `posts:send-emails` command**. It has three outcomes.

The database is `Entities.Store`. Users are keyed by email and posts by id.
The two pivot tables (`subscribers` and `post_email_recipients`) are sequences
of rows. Because of that, the unguarded `attach` in the code can leave a
repeated row, and the model represents it. `Entities.Valid` collects the
invariants of a reachable database. These operations are proved to preserve
it:

- `UserRepository.FindOrCreate`;
- `SubscribeUseCase.Execute`;
- `PostSubmitUseCase.Execute`, through `PostSubmitUseCase.ExecuteAddsOneFreshPost`;
- post create, update and delete in `PostRepository`;
- the fanout, through `Publication.FanoutPreservesValid`.

The repository's `SubscriptionRepository.Subscribe` alone does not preserve
it. Subscribing a pair twice repeats the row
(`SubscriptionRepository.SubscribeTwiceRepeatsRow`). Only the
already-subscribed guard in `SubscribeUseCase` keeps the pivot free of
repeats.

`send` is a total predicate `accepts: Mail -> bool`. A `false` result means
`send` throws. The exception is not caught, so the run stops at that user.

The central results are in `Fanout`:

- `FanoutIsSound` states what every run guarantees.
- `SendsExactlyToUnrecorded` shows that a complete run sends exactly to the
  listed users that were unrecorded, and records all of them.
- `RerunSendsNothing` shows idempotence.
- `RunKeepsSendsAccounted` shows at most one send per (post, user) pair over
  any number of sequential runs, even when the list repeats users, when
  ledger writes succeed.
- `LedgerFrame` shows that the ledger gains rows only for this post and for
  listed users.
- `HandlePostPublished` is the loop itself. It is proved equal to the
  recursive definition `Fanout`.

Three facts about the code that shape the model:

- Post creation is not wrapped in a transaction.
- There is no per-recipient failure list: `send` returns nothing, and a
  throwing send aborts the rest of the loop.
- The ledger does no duplicate check. The check-then-insert happens in the
  listener, and `markEmailSentTo` appends unconditionally.

A PHP edge case is proved rather than assumed. A `website_id` of `"00"` is not
`empty()`, yet it coerces to `0`. So `SubmitPostData.FromArray` accepts it and
yields website id 0 (`SubmitPostData.ZeroPaddedWebsiteIdPasses`). PHP's
`int` is 64 bits wide. A digit string outside that range also passes
`empty()`, but the typed constructor then raises a TypeError
(`SubmitPostData.OutOfRangeWebsiteIdIsTypeError`).

## Model

| member | source | states |
|---|---|---|
| Php.Empty | app/Post/DataTransferObjects/SubmitPostData.php:20 | `empty()` holds exactly for null, false, 0, "" and "0" |
| Php.CastToString | app/Post/DataTransferObjects/SubmitPostData.php:32-36 | the string PHP's `(string)` cast gives, which is what a typed `string` parameter receives for every non-null scalar (null never gets there, because `empty()` rejects it first): null is "", true is "1" and false is "", a string is kept, an int is its decimal form with no sign for non-negative values and no leading zero, which parses back to it; the result is "" or "0" exactly when the value is PHP-empty |
| Php.ToIntParam | app/Post/DataTransferObjects/SubmitPostData.php:35 | coercion into the typed `int` parameter: an int passes unchanged, true is 1 and false is 0, null is a TypeError, and a string is accepted exactly when it is an optional sign and digits whose value lies in the 64-bit range, which is then its value |
| Php.OutOfRangeStringIsTypeError | app/Post/DataTransferObjects/SubmitPostData.php:12 | the decimal form of an integer outside the 64-bit range is a TypeError for an `int` parameter |
| Php.ParseIntOfIntToString | app/Application/Listeners/SendPostPublishedEmail.php:31 | reading back the decimal form PHP interpolates for an int gives the same int |
| Php.IntToStringInjective | app/Application/Listeners/SendPostPublishedEmail.php:31 | different ints interpolate to different strings |
| Php.BeforeFirst | app/Infrastructure/Repositories/EloquentUserRepository.php:14 | `explode('@', $email)[0]` is a prefix of the email with no `@`, which ends at the first `@` or at the end of the string |
| Php.BeforeFirstIsUnique | app/Infrastructure/Repositories/EloquentUserRepository.php:14 | those three properties determine the result: any string satisfying them equals `BeforeFirst` |
| Entities.Reject | app/Post/DataTransferObjects/SubmitPostData.php:21 | `withMessages([field => [message]])` reports exactly one field with exactly one message |
| Entities.Commit | app/Website/UseCases/SubscribeUseCase.php:32-42 | a transaction keeps the callback's writes when it returns, and restores the earlier store when it throws |
| PostEntity.HasUserReceivedEmail | app/Post/Entities/Post.php:34-37 | a user has received a post's email exactly when a ledger row pairs the post's id with the user's id |
| PostEntity.MarkEmailSentTo | app/Post/Entities/Post.php:39-42 | marking appends one row for exactly this post id and user id; afterwards the user has received the email; every other (post, user) answer is unchanged |
| PostEntity.RecipientCount | app/Post/Testing/PostTest.php:67 | `emailedUsers()->count()` counts the post's ledger rows, repeats included; it never exceeds the ledger's length, and it is 0 exactly when no row belongs to the post |
| PostEntity.CountAfterMark | app/Post/Entities/Post.php:41 | every mark adds one to the post's recipient count, with no existence check |
| PostEntity.CountZeroWithoutRows | app/Post/Entities/Post.php:34-37 | a post with no ledger rows has recipient count 0, and no user has received its email |
| PostEntity.FreshPostHasNoRecipients | app/Post/Testing/PostTest.php:16-24 | in a valid database a post newer than every row has received no emails |
| PostEntity.MarkTwoUsers | app/Post/Testing/PostTest.php:53-67 | after marking u1 and then u2 on a fresh post, both are tracked and the recipient count is 2 |
| PostEntity.MarkTwiceRepeatsRow | app/Post/Entities/Post.php:41 | marking the same user twice leaves a repeated row and raises the count by 2 |
| UserRepository.FindOrCreate | app/Infrastructure/Repositories/EloquentUserRepository.php:10-16 | an existing email returns its stored user and changes nothing; a new email creates exactly one user with that email, the next id and the name taken from the email, and changes nothing else |
| UserRepository.FindOrCreateIsIdempotent | app/Infrastructure/Testing/EloquentUserRepositoryTest.php:44-53 | a second call with the same email returns the same id and leaves the store as the first call left it |
| UserRepository.FindOrCreatePreservesValid | app/Infrastructure/Repositories/EloquentUserRepository.php:12-15 | user ids stay unique and below the counter, and the returned user has the requested email |
| UserRepository.NameOfExampleAddress | app/Infrastructure/Testing/EloquentUserRepositoryTest.php:55-62 | `bob@example.com` gives the name `bob` |
| UserRepository.NameWithoutAtIsWholeEmail | app/Infrastructure/Repositories/EloquentUserRepository.php:14 | an email without `@` gives the whole string as the name |
| SubscriptionRepository.IsSubscribed | app/Infrastructure/Repositories/EloquentSubscriptionRepository.php:11-14 | a user is subscribed to a website exactly when a pivot row pairs the website's id with the user's id |
| SubscriptionRepository.Subscribe | app/Infrastructure/Repositories/EloquentSubscriptionRepository.php:16-19 | afterwards the user is subscribed to the website; subscriptions to other websites, and of other users, are unchanged; exactly one row is appended |
| SubscriptionRepository.NeverAttachedIsNotSubscribed | app/Infrastructure/Testing/EloquentSubscriptionRepositoryTest.php:37-44 | a website with no subscriber rows has nobody subscribed |
| SubscriptionRepository.SubscribeTwiceRepeatsRow | app/Infrastructure/Repositories/EloquentSubscriptionRepository.php:18 | the repository does not check membership: subscribing twice leaves a repeated row |
| SubscriptionRepository.SubscribeFreshPairKeepsNoDuplicates | app/Infrastructure/Repositories/EloquentSubscriptionRepository.php:16-19 | subscribing a pair that is not yet present keeps the pivot free of repeats |
| PostRepository.FindById | app/Infrastructure/Repositories/EloquentPostRepository.php:16-19 | an existing id returns that post, and an unknown id returns null |
| PostRepository.Create | app/Infrastructure/Repositories/EloquentPostRepository.php:11-14 | the new post carries the given title, description and website id; it can be retrieved by its id; every other id finds what it found before |
| PostRepository.CreatePreservesValid | app/Infrastructure/Repositories/EloquentPostRepository.php:11-14 | in a valid database the new post takes an unused id, adds exactly that key, and keeps the database valid |
| PostRepository.Apply | app/Infrastructure/Repositories/EloquentPostRepository.php:23 | `update($attributes)` replaces each attribute the patch gives and keeps every other one, the id included |
| PostRepository.Update | app/Infrastructure/Repositories/EloquentPostRepository.php:21-25 | the same post comes back with each given attribute replaced and each absent one kept; it is what the store now holds; other posts are unchanged |
| PostRepository.UpdateIsIdempotent | app/Infrastructure/Repositories/EloquentPostRepository.php:21-25 | updating again with the same attributes changes nothing more |
| PostRepository.UpdatePreservesValid | app/Infrastructure/Repositories/EloquentPostRepository.php:21-25 | an update of a stored post keeps the database valid |
| PostRepository.Delete | app/Infrastructure/Repositories/EloquentPostRepository.php:27-30 | returns true; the post can no longer be found; every other post remains |
| PostRepository.DeletePreservesValid | app/Infrastructure/Repositories/EloquentPostRepository.php:27-30 | deleting a stored post keeps the database valid |
| PostRepository.DeleteUndoesCreate | app/Infrastructure/Testing/EloquentPostRepositoryTest.php:78-88 | deleting a just-created post restores the post table, so creation touched no other row |
| SubmitPostData.FromArray | app/Post/DataTransferObjects/SubmitPostData.php:18-37 | an empty title, else an empty description, else an empty website_id fails with exactly that field's message; a non-empty website_id that does not coerce to an int is the constructor's TypeError on website_id, not a validation error; success happens exactly when all three are non-empty and website_id coerces to an int; on success the fields are the coerced inputs, and the title and description are neither "" nor "0" |
| SubmitPostData.FromArrayOfToArray | app/Post/DataTransferObjects/SubmitPostData.php:32-36 | every DTO with non-empty fields, a negative website id included, is read back unchanged from its request array |
| SubmitPostData.ZeroPaddedWebsiteIdPasses | app/Post/DataTransferObjects/SubmitPostData.php:28-30 | website_id `"00"` passes the required check and yields website id 0 |
| SubmitPostData.OutOfRangeWebsiteIdIsTypeError | app/Post/DataTransferObjects/SubmitPostData.php:12 | a website_id that is the decimal form of an integer outside the 64-bit range passes the required check and then fails with a TypeError |
| SubmitPostData.NonNumericWebsiteIdIsTypeError | app/Post/DataTransferObjects/SubmitPostData.php:12 | a non-numeric website_id passes `empty()`, but the typed constructor then raises a TypeError |
| SubscribeData.FromArray | app/Website/DataTransferObjects/SubscribeData.php:14-32 | an empty email fails with "Email is required"; an email rejected by the email filter fails with "Email must be valid"; otherwise an empty website_id fails with "Website is required", and a non-empty one that does not coerce to an int is the constructor's TypeError on website_id; success happens exactly when all checks pass, and it carries the input email, which the filter accepted, and the coerced website id |
| SubscribeData.FromArrayOfToArray | app/Website/DataTransferObjects/SubscribeData.php:28-31 | a DTO with an accepted email and a non-zero website id is read back unchanged |
| SubscribeData.OutOfRangeWebsiteIdIsTypeError | app/Website/DataTransferObjects/SubscribeData.php:11 | with an accepted email, a website_id outside the 64-bit range fails with a TypeError |
| SubscribeData.AddressWithoutAtIsRejected | app/Website/Testing/SubscribeUseCaseTest.php:205-209 | under any email filter that demands an `@`, "invalid-email" fails with "Email must be valid" whatever website_id is |
| PostSubmitUseCase.Execute | app/Post/UseCases/PostSubmitUseCase.php:16-29 | a validation failure propagates, with no write and no event; success creates one post whose fields equal the DTO's, retrievable under the next id, dispatches `PostPublished` exactly once with it, and leaves every other post and table unchanged |
| PostSubmitUseCase.ExecuteAddsOneFreshPost | app/Post/UseCases/PostSubmitUseCase.php:20-24 | in a valid database, success inserts exactly one post under an unused id, keeps the database valid, and the new post has no recipients |
| PostSubmitUseCase.EmptyTitleIsRejected | app/Post/Testing/PostSubmitUseCaseTest.php:115-119 | an empty title fails with the title message, writes nothing and dispatches nothing |
| SubscribeUseCase.Callback | app/Website/UseCases/SubscribeUseCase.php:32-42 | the callback fails with "Already subscribed" exactly when the found-or-created user is already subscribed; otherwise it subscribes that user to the website and returns both |
| SubscribeUseCase.Execute | app/Website/UseCases/SubscribeUseCase.php:22-43 | every failure leaves the store unchanged: a validation error, an unknown website ("Website not found"), or an existing subscription ("Already subscribed"); success appends exactly the (website, user) row, which was absent before, and changes only users and subscriptions |
| SubscribeUseCase.ExecutePreservesValid | app/Website/UseCases/SubscribeUseCase.php:35-39 | the already-subscribed guard keeps the database valid, with the `subscribers` pivot free of repeats |
| SubscribeUseCase.RepeatIsAlreadySubscribed | app/Website/UseCases/SubscribeUseCase.php:35-37 | repeating a successful request fails with "Already subscribed" and changes nothing |
| SubscribeUseCase.NewUserIsNeverAlreadySubscribed | app/Website/UseCases/SubscribeUseCase.php:33-37 | in a valid database a new email is never already subscribed, so the rolled-back callback never discards a created user |
| SubscriberCache.Key | app/Application/Listeners/SendPostPublishedEmail.php:31 | the key is `website_`, then exactly the website id's decimal form (the string PHP interpolates), which reads back as that id, then `_users` |
| SubscriberCache.KeyWebsiteOfKey | app/Application/Listeners/SendPostPublishedEmail.php:31 | the website id can be read back from `website_{id}_users` |
| SubscriberCache.KeysAreDistinct | app/Application/Listeners/SendPostPublishedEmail.php:31 | two websites never share a cached subscriber list |
| SubscriberCache.Remember | app/Application/Listeners/SendPostPublishedEmail.php:30-34 | a hit returns the stored list and leaves the cache unchanged; a miss returns the computed list and stores it with the given TTL; other keys are untouched |
| SubscriberCache.RememberIsStable | app/Application/Listeners/SendPostPublishedEmail.php:30-34 | within the entry's 60-second lifetime, a second read of the same key returns the first list whatever the directory now says, and writes nothing |
| Fanout.Marks | app/Application/Listeners/SendPostPublishedEmail.php:46 | the rows recorded for a sequence of users are one (post id, user id) row per user, in order |
| Fanout.Fanout | app/Application/Listeners/SendPostPublishedEmail.php:36-47 | the ledger after the loop is the ledger before it plus exactly one row per successful send; an abort index lies in the list |
| Fanout.SkipStep | app/Application/Listeners/SendPostPublishedEmail.php:37-39 | skipping a recorded first user keeps every guarantee of the run over the rest |
| Fanout.SendStep | app/Application/Listeners/SendPostPublishedEmail.php:41-46 | sending to and then recording an unrecorded first user keeps every guarantee, and no later send goes to the same id |
| Fanout.FanoutIsSound | app/Application/Listeners/SendPostPublishedEmail.php:36-47 | a run stops only where `send` throws for an unrecorded user; it records every user it got past; it sends only to users it got past, who were unrecorded and whose send succeeded; it sends to no id twice |
| Fanout.SendsExactlyToUnrecorded | app/Application/Testing/SendPostPublishedEmailTest.php:98-133 | after a complete run every listed user is recorded, and a listed user was sent to exactly when it was not recorded before |
| Fanout.LedgerFrame | app/Application/Listeners/SendPostPublishedEmail.php:46 | the old ledger is a prefix of the new one; new rows belong to this post and listed users; answers for other posts and unlisted users are unchanged |
| Fanout.AllRecordedIsNoOp | app/Application/Listeners/SendPostPublishedEmail.php:37-39 | when every listed user is recorded, the run sends nothing and writes nothing |
| Fanout.RerunSendsNothing | app/Application/Listeners/SendPostPublishedEmail.php:36-47 | re-running a complete run with the same list sends nothing and leaves the ledger unchanged |
| Fanout.ReliableMailerCompletes | app/Application/Listeners/SendPostPublishedEmail.php:41-46 | with a mailer that never throws, the loop reaches the end of the list |
| Fanout.AbortStopsAtFailure | app/Application/Listeners/SendPostPublishedEmail.php:41-46 | when `send` throws for a user, that user stays unrecorded, and only earlier users were sent to |
| Fanout.RunKeepsSendsAccounted | app/Application/Listeners/SendPostPublishedEmail.php:36-47 | every run keeps the send history recorded in the ledger and free of repeats, so, when ledger writes succeed, no (post, user) pair is ever sent to twice, even when the list has duplicates |
| Fanout.ThreeSubscribersOneNotified | app/Application/Testing/SendPostPublishedEmailTest.php:98-133 | with the list [already emailed, eligible, eligible], in the test's order, and sends to the two eligible users succeeding: the first user is skipped, exactly the other two are sent to, and all three end up recorded |
| Fanout.ListenerWebsite | app/Application/Listeners/SendPostPublishedEmail.php:21-28 | `$post->website` is null exactly when the post's website does not exist |
| Fanout.HandlePostPublished | app/Application/Listeners/SendPostPublishedEmail.php:19-48 | with no website: no send, no ledger write, no cache access; otherwise the list is read once through `remember` with key `website_{id}_users` and TTL 60, and the loop performs the run `Fanout` defines, appending one row per successful send |
| SendPostEmailsCommand.FindByArgument | app/Console/Commands/SendPostEmailsCommand.php:17-19 | the argument finds a post exactly when it is an optional sign and digits naming a stored id |
| SendPostEmailsCommand.Handle | app/Console/Commands/SendPostEmailsCommand.php:15-36 | an unknown post gives FAILURE with "Post with ID {id} not found."; otherwise a post without a website gives FAILURE with "Website not found for post ID {id}."; otherwise exactly one `PostPublished` is dispatched for that post, the title is printed and the result is SUCCESS; every failure dispatches nothing |
| SendPostEmailsCommand.DispatchedPostHasListenerWebsite | app/Console/Commands/SendPostEmailsCommand.php:26-31 | a post the command dispatches never takes the listener's no-website return |
| SendPostEmailsCommand.IdArgumentFindsPost | app/Console/Testing/SendPostEmailsCommandTest.php:26-46 | running the command with a post's id dispatches that post and reports its title |
| Publication.FanoutPreservesValid | app/Application/Listeners/SendPostPublishedEmail.php:46 | recording a fanout for a stored post keeps the database valid |
| Publication.SubmittedPostReachesEveryListedUser | app/Post/UseCases/PostSubmitUseCase.php:26 | for a freshly submitted post and a mailer that never throws, the fanout completes and sends exactly once to every listed user id |

## Left out

- HTTP layer: controllers, routes and the Sentry middleware are request plumbing. `SubscriptionController` reads fields of the readonly `SubscriptionResult` with array indexing (app/Http/Controllers/SubscriptionController.php:26-27); that code is not part of this model.
- Mail rendering and delivery (`PostPublishedMail`, `LaravelEmailService`, `app/Infrastructure/Email/EmailService.php`): these are external I/O. `send` is the parameter `accepts`, which either succeeds or stands for a thrown exception.
- Database failures: reads and writes (`exists`, `attach`, `create`, `firstOrCreate`) are assumed to succeed. A `markEmailSentTo` that throws after a successful `send` (app/Application/Listeners/SendPostPublishedEmail.php:41-46) would leave the user unrecorded, and a rerun would send again.
- Queueing and concurrency: the listener is queued (`ShouldQueue`). Only sequential runs are modelled. The check-then-insert between `hasUserReceivedEmail` and `markEmailSentTo` has no uniqueness guard, so two concurrent runs could both send. The ledger model can represent the resulting duplicate rows, but no interleaving is modelled.
- The subscriber query `$website->users()->get()` is the parameter `directory`. The fanout's guarantees hold for any list, because a cached list may be stale anyway.
- SubscriberCache.Remember: entries never expire. The TTL of 60 is stored with the entry but not enforced, because there is no clock.
- SubscriberCache.RememberIsStable: holds only within the entry's 60-second lifetime. After the entry expires, the source recomputes the list from `$website->users()->get()`, and the model has no clock to express that.
- SubmitPostData.FromArray: PHP's wider numeric strings (surrounding whitespace, decimals, exponents) and float or array request values are not modelled. A string website_id counts as an int only when it is an optional sign followed by digits whose value lies in the 64-bit range; any other string is a TypeError.
- SubscribeData.FromArray: `filter_var(..., FILTER_VALIDATE_EMAIL)` is the uninterpreted parameter `isEmail`, applied to the value's string cast. The string website_id rule is the same as for SubmitPostData.FromArray.
- UserRepository.FindOrCreate: emails are compared by exact string equality. Database collation (for example case-insensitive matching) is not modelled.
- PostRepository.Update: requires the given post to be the stored one. Stale model instances and Eloquent's dirty-attribute tracking are not modelled.
- PostRepository.Delete: requires the given post to be stored. The return value of deleting a model that no longer exists is not modelled.
- Database constraints: the migrations are not part of this model. No foreign key on `posts.website_id` and no unique index on either pivot table is assumed, so `PostSubmitUseCase.Execute` creates a post for any website id that passes validation, 0 from `"00"` included.
- SendPostEmailsCommand.FindByArgument: the database's comparison of the integer id column with the raw string argument is reduced to an optional sign and digits. MySQL and SQLite would also match an argument such as "7.0" to post 7, and PostgreSQL would report a query error; the model reports "not found" for both.
- Entities.Commit: a rollback also restores the auto-increment counter. Databases usually leave a gap there. The gap does not matter: `Valid` compares ids for equality and against the counters with `<`, and a gap keeps every id below its counter.
- `EloquentWebsiteRepository::find` is a map lookup in `Store.websites`. `EloquentWebsiteUserService` and `GetAllWebsitesUseCase` are thin lookups and not modelled. The website repository test calls an `all()` method that the class does not define.
- `PostEmailRecipient` is left out. It names its table `post_email_recipient`, but the relation the code uses is `post_email_recipients`. Only the relation is modelled.
- The test at app/Post/Testing/PostSubmitUseCaseTest.php:70-110 builds the use case with three arguments and expects synchronous emails. This does not match the one-argument constructor, so nothing is derived from it.
- Events are modelled as the list of posts they carry. The event bus and listener registration are not modelled.
- Console output is modelled as the list of lines written; styling is not modelled.

=== FILE: entities.dfy ===
/** The persistent state the core reads and writes, reduced to immutable
    values: websites, users keyed by email, the `subscribers` pivot, posts
    keyed by id and the `post_email_recipients` pivot. */
module Entities {
  import opened Wrappers

  datatype User = User(id: int, email: string, name: string)

  datatype Website = Website(id: int, url: string)

  datatype Post = Post(id: int, title: string, description: string, websiteId: int)

  /** One row of the `subscribers` pivot table. */
  datatype Subscription = Subscription(websiteId: int, userId: int)

  /** One row of the `post_email_recipients` pivot table: the ledger of
      notifications already sent. */
  datatype Recipient = Recipient(postId: int, userId: int)

  /** The database. Pivot tables are sequences of rows, so a repeated
      `attach` leaves a repeated row; `nextUserId` and `nextPostId` are the
      auto-increment counters. */
  datatype Store = Store(
    websites: map<int, Website>,
    users: map<string, User>,
    nextUserId: int,
    subscriptions: seq<Subscription>,
    posts: map<int, Post>,
    nextPostId: int,
    recipients: seq<Recipient>)

  /** No two rows of a pivot table are the same pair. */
  ghost predicate NoDuplicates<T>(rows: seq<T>) {
    forall i, j :: 0 <= i < j < |rows| ==> rows[i] != rows[j]
  }

  /** The invariants of a reachable database: keys agree with the records
      they index, user ids are unique and every id lies below its counter,
      subscriptions refer to existing users and are never repeated, and
      ledger rows refer to posts that were created. */
  ghost predicate Valid(s: Store) {
    && (forall w :: w in s.websites ==> s.websites[w].id == w)
    && (forall e :: e in s.users ==> s.users[e].email == e && s.users[e].id < s.nextUserId)
    && (forall e1, e2 :: e1 in s.users && e2 in s.users && e1 != e2 ==> s.users[e1].id != s.users[e2].id)
    && (forall i :: 0 <= i < |s.subscriptions| ==> s.subscriptions[i].userId < s.nextUserId)
    && NoDuplicates(s.subscriptions)
    && (forall p :: p in s.posts ==> s.posts[p].id == p && p < s.nextPostId)
    && (forall i :: 0 <= i < |s.recipients| ==> s.recipients[i].postId < s.nextPostId)
  }

  /** `ValidationException::withMessages([field => [message]])` is
      `Invalid`; `TypeError` is the error PHP raises when a value cannot be
      coerced to a typed constructor parameter. */
  datatype Failure = Invalid(errors: map<string, seq<string>>) | TypeError(field: string)

  /** A validation failure reporting exactly one message for one field. */
  function Reject(field: string, message: string): (f: Failure)
    ensures f.Invalid? && f.errors.Keys == {field} && f.errors[field] == [message]
  {
    Invalid(map[field := [message]])
  }

  const TitleRequired := "Title is required"
  const DescriptionRequired := "Description is required"
  const WebsiteRequired := "Website is required"
  const EmailRequired := "Email is required"
  const EmailInvalid := "Email must be valid"
  const WebsiteNotFound := "Website not found"
  const AlreadySubscribed := "Already subscribed to this website"

  /** A unit of work: what the callback wrote is kept when it returns and
      discarded, restoring `before`, when it throws. */
  function Commit<T>(before: Store, after: Store, result: Result<T, Failure>): (s: Store)
    ensures result.Failure? ==> s == before
    ensures result.Success? ==> s == after
  {
    if result.Success? then after else before
  }
}

=== FILE: fanout.dfy ===
/** `SendPostPublishedEmail::handle`: for a post with a website, read the
    subscriber list through the cache, and for each listed user in order
    skip the user if the ledger already records them for this post,
    otherwise send the email and then record it. A `send` that throws
    ends the whole run. */
module Fanout {
  import opened Wrappers
  import opened Entities
  import opened PostEntity
  import SubscriberCache

  /** The `send` payload: `['to' => $user->email, 'post' => $post]`. */
  datatype Mail = Mail(to: string, post: Post)

  function MailTo(user: User, post: Post): Mail {
    Mail(user.email, post)
  }

  /** How a run ended: after the whole list, or by the exception `send`
      raised for the user at index `at`. */
  datatype Halt = Completed | Aborted(at: nat)

  /** The users successfully sent to, in order, and the ledger after the
      run. */
  datatype Run = Run(delivered: seq<User>, ledger: seq<Recipient>, halt: Halt)

  /** The rows `markEmailSentTo` appends for `users`, in order. */
  function Marks(post: Post, users: seq<User>): (rows: seq<Recipient>)
    ensures |rows| == |users|
    ensures forall i :: 0 <= i < |users| ==> rows[i] == Recipient(post.id, users[i].id)
  {
    seq(|users|, i requires 0 <= i < |users| => Recipient(post.id, users[i].id))
  }

  lemma MarksCons(post: Post, u: User, users: seq<User>)
    ensures Marks(post, [u] + users) == [Recipient(post.id, u.id)] + Marks(post, users)
  {
  }

  /** Marking `u` and then the rows of `ds` is marking `[u] + ds`. */
  lemma MarkThenMarks(ledger: seq<Recipient>, post: Post, u: User, ds: seq<User>)
    ensures MarkEmailSentTo(ledger, post, u) + Marks(post, ds) == ledger + Marks(post, [u] + ds)
  {
    MarksCons(post, u, ds);
    assert MarkEmailSentTo(ledger, post, u) == ledger + [Recipient(post.id, u.id)];
  }

  /** The number of list entries the run got past before stopping. */
  function Reached(users: seq<User>, halt: Halt): (n: nat)
    ensures n <= |users|
  {
    if halt.Aborted? && halt.at < |users| then halt.at else |users|
  }

  predicate DistinctIds(users: seq<User>) {
    forall i, j :: 0 <= i < j < |users| ==> users[i].id != users[j].id
  }

  /** A halt index of a run over a list's tail, as seen from `k` entries
      earlier. */
  function Offset(h: Halt, k: nat): (r: Halt)
    ensures r.Completed? <==> h.Completed?
    ensures r.Aborted? ==> r.at == h.at + k
  {
    match h
    case Completed => Completed
    case Aborted(at) => Aborted(at + k)
  }

  /** A run over `users[k..]` seen from the whole list, after `delivered`
      were sent to among the first `k` entries. */
  function Prefix(delivered: seq<User>, k: nat, r: Run): Run {
    Run(delivered + r.delivered, r.ledger, Offset(r.halt, k))
  }

  /** The loop of `handle` over `users`, starting from `ledger`; `accepts`
      is the mailer: it returns false where `send` throws. */
  function Fanout(users: seq<User>, post: Post, ledger: seq<Recipient>, accepts: Mail -> bool): (r: Run)
    ensures r.ledger == ledger + Marks(post, r.delivered)
    ensures |r.delivered| <= |users|
    ensures r.halt.Aborted? ==> r.halt.at < |users|
    decreases |users|
  {
    if users == [] then Run([], ledger, Completed)
    else
      var u := users[0];
      if HasUserReceivedEmail(ledger, post, u) then
        var rest := Fanout(users[1..], post, ledger, accepts);
        assert [] + rest.delivered == rest.delivered;
        Prefix([], 1, rest)
      else if !accepts(MailTo(u, post)) then
        Run([], ledger, Aborted(0))
      else
        var rest := Fanout(users[1..], post, MarkEmailSentTo(ledger, post, u), accepts);
        MarkThenMarks(ledger, post, u, rest.delivered);
        Prefix([u], 1, rest)
  }

  /** What a run promises: it stops only where `send` throws for a user
      not yet recorded; every user it got past is recorded; it sent only
      to users it got past, who were unrecorded at the start and whose
      send succeeded; and it sent to no user id twice. */
  ghost predicate Sound(users: seq<User>, post: Post, ledger: seq<Recipient>, accepts: Mail -> bool, r: Run) {
    && (r.halt.Aborted? ==>
          && r.halt.at < |users|
          && !accepts(MailTo(users[r.halt.at], post))
          && !HasUserReceivedEmail(r.ledger, post, users[r.halt.at]))
    && (forall i :: 0 <= i < Reached(users, r.halt) ==> HasUserReceivedEmail(r.ledger, post, users[i]))
    && (forall d :: d in r.delivered ==> d in users[..Reached(users, r.halt)])
    && (forall d :: d in r.delivered ==> !HasUserReceivedEmail(ledger, post, d) && accepts(MailTo(d, post)))
    && DistinctIds(r.delivered)
  }

  lemma SkipStep(users: seq<User>, post: Post, ledger: seq<Recipient>, accepts: Mail -> bool, rest: Run)
    requires users != [] && HasUserReceivedEmail(ledger, post, users[0])
    requires rest.ledger == ledger + Marks(post, rest.delivered)
    requires Sound(users[1..], post, ledger, accepts, rest)
    ensures Sound(users, post, ledger, accepts, Prefix([], 1, rest))
  {
    var r := Prefix([], 1, rest);
    var k := Reached(users[1..], rest.halt);
    assert Reached(users, r.halt) == k + 1;
    assert r.delivered == rest.delivered;
    WithinReachOfTail(users, k, rest.delivered);
    HeadAndTailRecorded(users, post, ledger, rest);
    if r.halt.Aborted? {
      assert users[r.halt.at] == users[1..][rest.halt.at];
    }
  }

  /** A user recorded in `base` stays recorded in any extension of it. */
  lemma RecordedInExtension(base: seq<Recipient>, extra: seq<Recipient>, post: Post, u: User)
    requires HasUserReceivedEmail(base, post, u)
    ensures HasUserReceivedEmail(base + extra, post, u)
  {
    assert Recipient(post.id, u.id) in base + extra;
  }

  /** A user the ledger does not record after marking `u` was not
      recorded before it either, and is not `u`. */
  lemma UnrecordedAfterMark(ledger: seq<Recipient>, post: Post, u: User, d: User)
    requires !HasUserReceivedEmail(MarkEmailSentTo(ledger, post, u), post, d)
    ensures !HasUserReceivedEmail(ledger, post, d) && d.id != u.id
  {
    if HasUserReceivedEmail(ledger, post, d) {
      RecordedInExtension(ledger, [Recipient(post.id, u.id)], post, d);
    }
  }

  /** Prepending a user whose id is new keeps the ids distinct. */
  lemma ConsKeepsDistinctIds(u: User, rest: seq<User>)
    requires DistinctIds(rest)
    requires forall d :: d in rest ==> d.id != u.id
    ensures DistinctIds([u] + rest)
  {
    var all := [u] + rest;
    forall i, j | 0 <= i < j < |all| ensures all[i].id != all[j].id {
      assert all[j] == rest[j - 1] && all[j] in rest;
      if i > 0 {
        assert all[i] == rest[i - 1];
      }
    }
  }

  /** The users a step got past are recorded: the head in `base`, the
      rest by the run over the tail, whose ledger extends `base`. */
  lemma HeadAndTailRecorded(users: seq<User>, post: Post, base: seq<Recipient>, rest: Run)
    requires users != [] && HasUserReceivedEmail(base, post, users[0])
    requires rest.ledger == base + Marks(post, rest.delivered)
    requires forall i :: 0 <= i < Reached(users[1..], rest.halt) ==> HasUserReceivedEmail(rest.ledger, post, users[1..][i])
    ensures forall i :: 0 <= i < Reached(users[1..], rest.halt) + 1 ==> HasUserReceivedEmail(rest.ledger, post, users[i])
  {
    forall i | 0 <= i < Reached(users[1..], rest.halt) + 1 ensures HasUserReceivedEmail(rest.ledger, post, users[i]) {
      if i == 0 {
        RecordedInExtension(base, Marks(post, rest.delivered), post, users[0]);
      } else {
        assert users[i] == users[1..][i - 1];
      }
    }
  }

  /** A user among the first `k` entries of the tail is among the first
      `k + 1` entries of the list. */
  lemma WithinReachOfTail(users: seq<User>, k: nat, ds: seq<User>)
    requires users != [] && k < |users|
    requires forall d :: d in ds ==> d in users[1..][..k]
    ensures forall d :: d in ds ==> d in users[..k + 1]
  {
    assert users[1..][..k] == users[1..k + 1];
    forall d | d in ds ensures d in users[..k + 1] {
      var i :| 0 <= i < k && users[1..k + 1][i] == d;
      assert users[..k + 1][i + 1] == d;
    }
  }

  lemma SendStep(users: seq<User>, post: Post, ledger: seq<Recipient>, accepts: Mail -> bool, rest: Run)
    requires users != [] && !HasUserReceivedEmail(ledger, post, users[0]) && accepts(MailTo(users[0], post))
    requires rest.ledger == MarkEmailSentTo(ledger, post, users[0]) + Marks(post, rest.delivered)
    requires Sound(users[1..], post, MarkEmailSentTo(ledger, post, users[0]), accepts, rest)
    ensures Sound(users, post, ledger, accepts, Prefix([users[0]], 1, rest))
  {
    var u := users[0];
    var marked := MarkEmailSentTo(ledger, post, u);
    var r := Prefix([u], 1, rest);
    var k := Reached(users[1..], rest.halt);
    assert Reached(users, r.halt) == k + 1;
    WithinReachOfTail(users, k, rest.delivered);
    assert u == users[..k + 1][0];
    HeadAndTailRecorded(users, post, marked, rest);
    forall d | d in rest.delivered ensures !HasUserReceivedEmail(ledger, post, d) && d.id != u.id {
      UnrecordedAfterMark(ledger, post, u, d);
    }
    ConsKeepsDistinctIds(u, rest.delivered);
    assert r.delivered == [u] + rest.delivered;
    if r.halt.Aborted? {
      assert users[r.halt.at] == users[1..][rest.halt.at];
    }
  }

  lemma {:induction false} FanoutIsSound(users: seq<User>, post: Post, ledger: seq<Recipient>, accepts: Mail -> bool)
    ensures Sound(users, post, ledger, accepts, Fanout(users, post, ledger, accepts))
    decreases |users|
  {
    if users != [] {
      var u := users[0];
      if HasUserReceivedEmail(ledger, post, u) {
        FanoutIsSound(users[1..], post, ledger, accepts);
        SkipStep(users, post, ledger, accepts, Fanout(users[1..], post, ledger, accepts));
      } else if accepts(MailTo(u, post)) {
        var marked := MarkEmailSentTo(ledger, post, u);
        FanoutIsSound(users[1..], post, marked, accepts);
        SendStep(users, post, ledger, accepts, Fanout(users[1..], post, marked, accepts));
      }
    }
  }

  /** After a complete run, sends went exactly to the listed users the
      ledger did not already record for this post, and every listed user
      is recorded. */
  lemma SendsExactlyToUnrecorded(users: seq<User>, post: Post, ledger: seq<Recipient>, accepts: Mail -> bool)
    requires Fanout(users, post, ledger, accepts).halt.Completed?
    ensures var r := Fanout(users, post, ledger, accepts);
      forall u :: u in users ==>
        && HasUserReceivedEmail(r.ledger, post, u)
        && ((exists d :: d in r.delivered && d.id == u.id) <==> !HasUserReceivedEmail(ledger, post, u))
  {
    var r := Fanout(users, post, ledger, accepts);
    FanoutIsSound(users, post, ledger, accepts);
    var m := Marks(post, r.delivered);
    forall u | u in users
      ensures HasUserReceivedEmail(r.ledger, post, u)
      ensures (exists d :: d in r.delivered && d.id == u.id) <==> !HasUserReceivedEmail(ledger, post, u)
    {
      var k :| 0 <= k < |users| && users[k] == u;
      assert HasUserReceivedEmail(r.ledger, post, users[k]);
      if !HasUserReceivedEmail(ledger, post, u) {
        assert Recipient(post.id, u.id) in m;
        var i :| 0 <= i < |m| && m[i] == Recipient(post.id, u.id);
        assert r.delivered[i] in r.delivered && r.delivered[i].id == u.id;
      }
    }
  }

  /** The run appends rows only for this post and for listed users; what
      the ledger says about any other post, or any unlisted user id, is
      unchanged. */
  lemma LedgerFrame(users: seq<User>, post: Post, ledger: seq<Recipient>, accepts: Mail -> bool)
    ensures var r := Fanout(users, post, ledger, accepts);
      && r.ledger[..|ledger|] == ledger
      && (forall i :: |ledger| <= i < |r.ledger| ==>
            r.ledger[i].postId == post.id && exists u :: u in users && u.id == r.ledger[i].userId)
      && (forall p: Post, v: User :: p.id != post.id || (forall u :: u in users ==> u.id != v.id) ==>
            (HasUserReceivedEmail(r.ledger, p, v) <==> HasUserReceivedEmail(ledger, p, v)))
  {
    var r := Fanout(users, post, ledger, accepts);
    FanoutIsSound(users, post, ledger, accepts);
    var m := Marks(post, r.delivered);
    forall i | 0 <= i < |m| ensures m[i].postId == post.id && exists u :: u in users && u.id == m[i].userId {
      var d := r.delivered[i];
      assert d in r.delivered;
      assert d in users;
    }
    forall i | |ledger| <= i < |r.ledger|
      ensures r.ledger[i].postId == post.id && exists u :: u in users && u.id == r.ledger[i].userId
    {
      assert r.ledger[i] == m[i - |ledger|];
    }
  }

  /** A run over a list whose users are all recorded for the post sends
      nothing and writes nothing, whatever the mailer would do. */
  lemma {:induction false} AllRecordedIsNoOp(users: seq<User>, post: Post, ledger: seq<Recipient>, accepts: Mail -> bool)
    requires forall u :: u in users ==> HasUserReceivedEmail(ledger, post, u)
    ensures Fanout(users, post, ledger, accepts) == Run([], ledger, Completed)
    decreases |users|
  {
    if users != [] {
      assert users[0] in users;
      assert forall u :: u in users[1..] ==> u in users;
      AllRecordedIsNoOp(users[1..], post, ledger, accepts);
    }
  }

  /** Idempotence: re-running a completed run with the same list sends
      nothing and leaves the ledger as the first run left it. */
  lemma RerunSendsNothing(users: seq<User>, post: Post, ledger: seq<Recipient>, first: Mail -> bool, second: Mail -> bool)
    requires Fanout(users, post, ledger, first).halt.Completed?
    ensures var r := Fanout(users, post, ledger, first);
      Fanout(users, post, r.ledger, second) == Run([], r.ledger, Completed)
  {
    var r := Fanout(users, post, ledger, first);
    SendsExactlyToUnrecorded(users, post, ledger, first);
    AllRecordedIsNoOp(users, post, r.ledger, second);
  }

  /** A mailer that never throws lets the run reach the end of the list. */
  lemma {:induction false} ReliableMailerCompletes(users: seq<User>, post: Post, ledger: seq<Recipient>, accepts: Mail -> bool)
    requires forall m :: accepts(m)
    ensures Fanout(users, post, ledger, accepts).halt.Completed?
    decreases |users|
  {
    if users != [] {
      ReliableMailerCompletes(users[1..], post, ledger, accepts);
      ReliableMailerCompletes(users[1..], post, MarkEmailSentTo(ledger, post, users[0]), accepts);
    }
  }

  /** If `send` throws, the run stops there: the failing user is not
      recorded, and no user after it was sent to. */
  lemma AbortStopsAtFailure(users: seq<User>, post: Post, ledger: seq<Recipient>, accepts: Mail -> bool)
    requires Fanout(users, post, ledger, accepts).halt.Aborted?
    ensures var r := Fanout(users, post, ledger, accepts);
      && !accepts(MailTo(users[r.halt.at], post))
      && !HasUserReceivedEmail(r.ledger, post, users[r.halt.at])
      && forall d :: d in r.delivered ==> d in users[..r.halt.at]
  {
    FanoutIsSound(users, post, ledger, accepts);
  }

  /** The history of all successful sends is accounted for by the ledger
      when every send appears in it and no (post, user) pair was sent to
      twice. */
  ghost predicate Accounted(sent: seq<Recipient>, ledger: seq<Recipient>) {
    (forall i :: 0 <= i < |sent| ==> sent[i] in ledger) && NoDuplicates(sent)
  }

  /** Joining two repeat-free sequences with no element in common gives a
      repeat-free sequence. */
  lemma AppendKeepsNoDuplicates<T>(a: seq<T>, b: seq<T>)
    requires NoDuplicates(a) && NoDuplicates(b)
    requires forall x :: x in a ==> x !in b
    ensures NoDuplicates(a + b)
  {
    var c := a + b;
    forall i, j | 0 <= i < j < |c| ensures c[i] != c[j] {
      if j < |a| {
        assert c[i] == a[i] && c[j] == a[j];
      } else if i >= |a| {
        assert c[i] == b[i - |a|] && c[j] == b[j - |a|];
      } else {
        assert c[i] == a[i] && c[i] in a;
        assert c[j] == b[j - |a|] && c[j] in b;
      }
    }
  }

  /** Users with distinct ids give distinct ledger rows. */
  lemma MarksOfDistinctIds(post: Post, users: seq<User>)
    requires DistinctIds(users)
    ensures NoDuplicates(Marks(post, users))
  {
  }

  /** Rows for users the ledger does not record are not in the ledger. */
  lemma MarksOfUnrecorded(post: Post, ledger: seq<Recipient>, users: seq<User>)
    requires forall d :: d in users ==> !HasUserReceivedEmail(ledger, post, d)
    ensures forall x :: x in ledger ==> x !in Marks(post, users)
  {
    var m := Marks(post, users);
    forall i | 0 <= i < |m| ensures m[i] !in ledger {
      assert users[i] in users;
    }
  }

  /** At most one send per (post, user): a sequential run keeps the history
      accounted, so over any number of runs, for any posts, lists with
      repeats and mailers, no pair is ever sent to twice. */
  lemma RunKeepsSendsAccounted(sent: seq<Recipient>, users: seq<User>, post: Post, ledger: seq<Recipient>, accepts: Mail -> bool)
    requires Accounted(sent, ledger)
    ensures var r := Fanout(users, post, ledger, accepts);
      Accounted(sent + Marks(post, r.delivered), r.ledger)
  {
    var r := Fanout(users, post, ledger, accepts);
    FanoutIsSound(users, post, ledger, accepts);
    var m := Marks(post, r.delivered);
    assert r.ledger == ledger + m;
    assert DistinctIds(r.delivered);
    MarksOfDistinctIds(post, r.delivered);
    assert forall d :: d in r.delivered ==> !HasUserReceivedEmail(ledger, post, d);
    MarksOfUnrecorded(post, ledger, r.delivered);
    forall x | x in sent ensures x in ledger {
      var i :| 0 <= i < |sent| && sent[i] == x;
    }
    AppendKeepsNoDuplicates(sent, m);
    var all := sent + m;
    forall i | 0 <= i < |all| ensures all[i] in r.ledger {
      if i < |sent| {
        assert all[i] == sent[i] && sent[i] in ledger;
      } else {
        assert all[i] == r.ledger[|ledger| + i - |sent|];
      }
    }
  }

  /** The scenario of three subscribers of whom the first was already
      notified: it is skipped, the other two are sent to, once each, and
      all three end up recorded. */
  lemma ThreeSubscribersOneNotified(post: Post, a: User, b: User, c: User, accepts: Mail -> bool)
    requires a.id != b.id && a.id != c.id && b.id != c.id
    requires accepts(MailTo(a, post)) && accepts(MailTo(b, post))
    ensures var ledger := [Recipient(post.id, c.id)];
      Fanout([c, a, b], post, ledger, accepts)
        == Run([a, b], ledger + [Recipient(post.id, a.id), Recipient(post.id, b.id)], Completed)
  {
    var ledger := [Recipient(post.id, c.id)];
    ScenarioLedger(post, a, b, c);
    SendBoth(post, a, b, ledger, accepts);
    var tail := Fanout([a, b], post, ledger, accepts);
    assert tail == Run([a, b], ledger + [Recipient(post.id, a.id), Recipient(post.id, b.id)], Completed);
    var users := [c, a, b];
    assert users[0] == c && users[1..] == [a, b];
    assert HasUserReceivedEmail(ledger, post, c);
    UnfoldSkip(users, post, ledger, accepts);
    assert Fanout(users, post, ledger, accepts) == Prefix([], 1, tail);
    assert [] + [a, b] == [a, b];
  }

  /** The ledger facts of that scenario: `a` is not recorded at first, and
      after `a` is recorded `b` still is not. */
  lemma ScenarioLedger(post: Post, a: User, b: User, c: User)
    requires a.id != b.id && a.id != c.id && b.id != c.id
    ensures var ledger := [Recipient(post.id, c.id)];
      var l1 := MarkEmailSentTo(ledger, post, a);
      && !HasUserReceivedEmail(ledger, post, a)
      && !HasUserReceivedEmail(l1, post, b)
  {
    var ledger := [Recipient(post.id, c.id)];
    var l1 := MarkEmailSentTo(ledger, post, a);
    assert l1 == [Recipient(post.id, c.id), Recipient(post.id, a.id)];
  }

  /** The last two steps of that scenario: `a` and then `b` are sent to
      and recorded. */
  lemma SendBoth(post: Post, a: User, b: User, ledger: seq<Recipient>, accepts: Mail -> bool)
    requires !HasUserReceivedEmail(ledger, post, a) && accepts(MailTo(a, post))
    requires !HasUserReceivedEmail(MarkEmailSentTo(ledger, post, a), post, b) && accepts(MailTo(b, post))
    ensures Fanout([a, b], post, ledger, accepts)
      == Run([a, b], ledger + [Recipient(post.id, a.id), Recipient(post.id, b.id)], Completed)
  {
    var l1 := MarkEmailSentTo(ledger, post, a);
    var l2 := MarkEmailSentTo(l1, post, b);
    assert l2 == ledger + [Recipient(post.id, a.id), Recipient(post.id, b.id)];
    assert [a, b][1..] == [b] && [b][1..] == [];
    assert Fanout([], post, l2, accepts) == Run([], l2, Completed);
    UnfoldSend([b], post, l1, accepts);
    assert Fanout([b], post, l1, accepts) == Run([b], l2, Completed);
    UnfoldSend([a, b], post, ledger, accepts);
    assert [a] + [b] == [a, b];
  }

  /** The website `handle` finds through `$post->website`, or `None` when
      the post's website does not exist. */
  function ListenerWebsite(s: Store, post: Post): (r: Option<Website>)
    ensures r.Some? <==> post.websiteId in s.websites
    ensures r.Some? ==> r.value == s.websites[post.websiteId]
  {
    if post.websiteId in s.websites then Some(s.websites[post.websiteId]) else None
  }

  /** One iteration of the loop, as an equation on `Fanout`. */
  lemma FanoutUnfold(users: seq<User>, post: Post, ledger: seq<Recipient>, accepts: Mail -> bool)
    requires users != []
    ensures Fanout(users, post, ledger, accepts) ==
      if HasUserReceivedEmail(ledger, post, users[0]) then Prefix([], 1, Fanout(users[1..], post, ledger, accepts))
      else if !accepts(MailTo(users[0], post)) then Run([], ledger, Aborted(0))
      else Prefix([users[0]], 1, Fanout(users[1..], post, MarkEmailSentTo(ledger, post, users[0]), accepts))
  {
  }

  /** A one-entry step seen from `k` entries earlier is a step of `k + 1`
      entries. */
  lemma PrefixOfPrefix(delivered: seq<User>, ds: seq<User>, k: nat, r: Run)
    ensures Prefix(delivered, k, Prefix(ds, 1, r)) == Prefix(delivered + ds, k + 1, r)
  {
    assert delivered + (ds + r.delivered) == (delivered + ds) + r.delivered;
    assert Offset(Offset(r.halt, 1), k) == Offset(r.halt, k + 1);
  }

  /** One iteration that skips a recorded user. */
  lemma UnfoldSkip(users: seq<User>, post: Post, ledger: seq<Recipient>, accepts: Mail -> bool)
    requires users != [] && HasUserReceivedEmail(ledger, post, users[0])
    ensures Fanout(users, post, ledger, accepts) == Prefix([], 1, Fanout(users[1..], post, ledger, accepts))
  {
  }

  /** One iteration that sends to, and then records, an unrecorded user. */
  lemma UnfoldSend(users: seq<User>, post: Post, ledger: seq<Recipient>, accepts: Mail -> bool)
    requires users != [] && !HasUserReceivedEmail(ledger, post, users[0]) && accepts(MailTo(users[0], post))
    ensures Fanout(users, post, ledger, accepts)
      == Prefix([users[0]], 1, Fanout(users[1..], post, MarkEmailSentTo(ledger, post, users[0]), accepts))
  {
  }

  /** The loop invariant of `HandlePostPublished` is kept by a skip. */
  lemma LoopSkips(users: seq<User>, i: nat, post: Post, ledger: seq<Recipient>, accepts: Mail -> bool, delivered: seq<User>)
    requires i < |users| && HasUserReceivedEmail(ledger, post, users[i])
    ensures Prefix(delivered, i, Fanout(users[i..], post, ledger, accepts))
      == Prefix(delivered, i + 1, Fanout(users[i + 1..], post, ledger, accepts))
  {
    FanoutUnfold(users[i..], post, ledger, accepts);
    assert users[i..][1..] == users[i + 1..];
    PrefixOfPrefix(delivered, [], i, Fanout(users[i + 1..], post, ledger, accepts));
    assert delivered + [] == delivered;
  }

  /** The loop invariant of `HandlePostPublished` is kept by a send. */
  lemma LoopSends(users: seq<User>, i: nat, post: Post, ledger: seq<Recipient>, accepts: Mail -> bool, delivered: seq<User>)
    requires i < |users| && !HasUserReceivedEmail(ledger, post, users[i]) && accepts(MailTo(users[i], post))
    ensures Prefix(delivered, i, Fanout(users[i..], post, ledger, accepts))
      == Prefix(delivered + [users[i]], i + 1, Fanout(users[i + 1..], post, MarkEmailSentTo(ledger, post, users[i]), accepts))
  {
    FanoutUnfold(users[i..], post, ledger, accepts);
    assert users[i..][1..] == users[i + 1..];
    PrefixOfPrefix(delivered, [users[i]], i, Fanout(users[i + 1..], post, MarkEmailSentTo(ledger, post, users[i]), accepts));
  }

  /** A throwing send ends the loop with the run `Fanout` defines. */
  lemma LoopAborts(users: seq<User>, i: nat, post: Post, ledger: seq<Recipient>, accepts: Mail -> bool, delivered: seq<User>)
    requires i < |users| && !HasUserReceivedEmail(ledger, post, users[i]) && !accepts(MailTo(users[i], post))
    ensures Prefix(delivered, i, Fanout(users[i..], post, ledger, accepts)) == Run(delivered, ledger, Aborted(i))
  {
    FanoutUnfold(users[i..], post, ledger, accepts);
  }

  /** `handle`. `directory` is what `$website->users()->get()` returns when
      the cache misses; on a hit it is not read. The returned run is the
      one `Fanout` defines, over the list the cache returned. */
  method HandlePostPublished(s: Store, cache: SubscriberCache.Cache, post: Post, directory: seq<User>, accepts: Mail -> bool)
    returns (run: Run, cache': SubscriberCache.Cache)
    ensures ListenerWebsite(s, post).None? ==> run == Run([], s.recipients, Completed) && cache' == cache
    ensures ListenerWebsite(s, post).Some? ==>
      var lookup := SubscriberCache.Remember(cache, SubscriberCache.Key(ListenerWebsite(s, post).value.id), SubscriberCache.Ttl, directory);
      && cache' == lookup.cache
      && run == Fanout(lookup.users, post, s.recipients, accepts)
    ensures run.ledger == s.recipients + Marks(post, run.delivered)
  {
    var website := ListenerWebsite(s, post);
    if website.None? {
      return Run([], s.recipients, Completed), cache;
    }
    var lookup := SubscriberCache.Remember(cache, SubscriberCache.Key(website.value.id), SubscriberCache.Ttl, directory);
    cache' := lookup.cache;
    var users := lookup.users;
    var delivered: seq<User> := [];
    var ledger := s.recipients;
    var i := 0;
    while i < |users|
      invariant 0 <= i <= |users|
      invariant Fanout(users, post, s.recipients, accepts) == Prefix(delivered, i, Fanout(users[i..], post, ledger, accepts))
      decreases |users| - i
    {
      var u := users[i];
      if HasUserReceivedEmail(ledger, post, u) {
        LoopSkips(users, i, post, ledger, accepts, delivered);
        i := i + 1;
      } else if !accepts(MailTo(u, post)) {
        LoopAborts(users, i, post, ledger, accepts, delivered);
        return Run(delivered, ledger, Aborted(i)), cache';
      } else {
        LoopSends(users, i, post, ledger, accepts, delivered);
        ledger := MarkEmailSentTo(ledger, post, u);
        delivered := delivered + [u];
        i := i + 1;
      }
    }
    assert users[i..] == [];
    run := Run(delivered, ledger, Completed);
  }
}

=== FILE: php.dfy ===
/** The small part of PHP's value semantics that the validators and the
    repositories depend on: request values, `empty()`, string casts and
    the coercion of scalars to typed `string` and `int` parameters in
    non-strict mode. */
module Php {
  import opened Wrappers

  /** The bounds of PHP's `int`, a signed 64-bit integer. */
  const IntMin: int := -0x8000_0000_0000_0000
  const IntMax: int := 0x7fff_ffff_ffff_ffff

  type PhpInt = i: int | IntMin <= i <= IntMax

  /** A scalar in a decoded request array. Floats and nested arrays are
      not modelled. */
  datatype Value = Null | Bool(b: bool) | Int(i: PhpInt) | Str(s: string)

  type Request = map<string, Value>

  /** `$data[$key]` inside `empty()`: a missing key reads as null without
      a warning. */
  function Get(data: Request, key: string): Value {
    if key in data then data[key] else Null
  }

  /** PHP's `empty()`: null, false, 0, "" and "0" are empty; every other
      scalar (a negative int, "00", "0.0", " ") is not. */
  function Empty(v: Value): (r: bool)
    ensures r <==> v in {Null, Bool(false), Int(0), Str(""), Str("0")}
  {
    match v
    case Null => true
    case Bool(b) => !b
    case Int(i) => i == 0
    case Str(s) => s == "" || s == "0"
  }

  predicate IsDigit(c: char) {
    '0' <= c <= '9'
  }

  predicate AllDigits(s: string) {
    forall i :: 0 <= i < |s| ==> IsDigit(s[i])
  }

  function DigitChar(d: nat): (c: char)
    requires d < 10
    ensures IsDigit(c)
  {
    (('0' as int) + d) as char
  }

  function DigitValue(c: char): (d: nat)
    requires IsDigit(c)
    ensures d < 10 && DigitChar(d) == c
  {
    (c as int) - ('0' as int)
  }

  /** Decimal digits of a natural number, most significant first, with no
      leading zero. */
  function NatToString(n: nat): (s: string)
    ensures |s| > 0 && AllDigits(s)
    ensures (s[0] == '0') <==> n == 0
    decreases n
  {
    if n < 10 then [DigitChar(n)] else NatToString(n / 10) + [DigitChar(n % 10)]
  }

  /** The value of a string of decimal digits (leading zeros allowed). */
  function ParseNat(s: string): nat
    requires AllDigits(s)
    decreases |s|
  {
    if s == [] then 0 else ParseNat(s[..|s| - 1]) * 10 + DigitValue(s[|s| - 1])
  }

  lemma {:induction false} ParseNatOfNatToString(n: nat)
    ensures ParseNat(NatToString(n)) == n
    decreases n
  {
    if n >= 10 {
      var front := NatToString(n / 10);
      var s := NatToString(n);
      assert s == front + [DigitChar(n % 10)];
      assert s[..|s| - 1] == front;
      ParseNatOfNatToString(n / 10);
    }
  }

  /** PHP's `(string)` cast of an int, also used by string interpolation. */
  function IntToString(i: int): (s: string)
    ensures |s| > 0
  {
    if i < 0 then "-" + NatToString(-i) else NatToString(i)
  }

  /** An integer numeric string: an optional sign followed by at least one
      decimal digit. */
  function ParseInt(s: string): Option<int> {
    if |s| > 0 && (s[0] == '-' || s[0] == '+') then
      if |s| > 1 && AllDigits(s[1..]) then
        Some(if s[0] == '-' then -(ParseNat(s[1..]) as int) else ParseNat(s[1..]) as int)
      else None
    else if |s| > 0 && AllDigits(s) then Some(ParseNat(s) as int)
    else None
  }

  lemma ParseIntOfIntToString(i: int)
    ensures ParseInt(IntToString(i)) == Some(i)
  {
    if i < 0 {
      var digits := NatToString(-i);
      var s := IntToString(i);
      assert s == "-" + digits;
      assert s[0] == '-' && s[1..] == digits && |s| > 1;
      ParseNatOfNatToString(-i);
    } else {
      var s := NatToString(i);
      assert IsDigit(s[0]);
      ParseNatOfNatToString(i);
    }
  }

  lemma IntToStringInjective(i: int, j: int)
    ensures IntToString(i) == IntToString(j) ==> i == j
  {
    ParseIntOfIntToString(i);
    ParseIntOfIntToString(j);
  }

  /** The string a scalar converts to when PHP casts it, as `filter_var`
      does with its argument. */
  function CastToString(v: Value): (s: string)
    ensures v.Null? ==> s == ""
    ensures v.Bool? ==> s == (if v.b then "1" else "")
    ensures v.Str? ==> s == v.s
    ensures v.Int? ==> s == IntToString(v.i) && ParseInt(s) == Some(v.i as int)
    ensures (s == "" || s == "0") <==> Empty(v)
  {
    match v
    case Null => ""
    case Bool(b) => if b then "1" else ""
    case Int(i) =>
      ParseIntOfIntToString(i);
      ParseIntOfIntToString(0);
      IntToStringInjective(i, 0);
      IntToString(i)
    case Str(s) => s
  }

  /** Coercion of a scalar passed to a typed `int` parameter in non-strict
      mode; `None` is the TypeError PHP throws. A string is accepted when
      it is an integer string whose value fits in an `int`. */
  function ToIntParam(v: Value): (r: Option<PhpInt>)
    ensures v.Null? ==> r.None?
    ensures v.Bool? ==> r == Some(if v.b then 1 else 0)
    ensures v.Int? ==> r == Some(v.i)
    ensures v.Str? ==> (r.Some? <==> ParseInt(v.s).Some? && IntMin <= ParseInt(v.s).value <= IntMax)
    ensures v.Str? && r.Some? ==> ParseInt(v.s) == Some(r.value as int)
  {
    match v
    case Null => None
    case Bool(b) => Some(if b then 1 else 0)
    case Int(i) => Some(i)
    case Str(s) =>
      match ParseInt(s)
      case None => None
      case Some(i) => if IntMin <= i <= IntMax then Some(i) else None
  }

  /** The decimal form of an integer outside the 64-bit range is not
      accepted by an `int` parameter. */
  lemma OutOfRangeStringIsTypeError(i: int)
    requires i < IntMin || IntMax < i
    ensures ToIntParam(Str(IntToString(i))).None?
  {
    ParseIntOfIntToString(i);
  }

  /** `explode($sep, $s)[0]`: the part of `s` before the first `sep`, or the
      whole of `s` when it has none. */
  function BeforeFirst(sep: char, s: string): (r: string)
    ensures |r| <= |s| && r == s[..|r|]
    ensures sep !in r
    ensures |r| < |s| ==> s[|r|] == sep
    decreases |s|
  {
    if s == [] || s[0] == sep then [] else [s[0]] + BeforeFirst(sep, s[1..])
  }

  /** The three properties of `BeforeFirst` determine it: any prefix that
      avoids `sep` and stops at `sep` or the end is that result. */
  lemma {:induction false} BeforeFirstIsUnique(sep: char, s: string, r: string)
    requires |r| <= |s| && r == s[..|r|]
    requires sep !in r
    requires |r| < |s| ==> s[|r|] == sep
    ensures r == BeforeFirst(sep, s)
    decreases |s|
  {
    if s != [] && s[0] != sep {
      assert |r| > 0;
      var tail := r[1..];
      assert tail == s[1..][..|tail|];
      BeforeFirstIsUnique(sep, s[1..], tail);
      assert r == [s[0]] + tail;
    }
  }
}

=== FILE: post_entity.dfy ===
/** The ledger methods of the Post entity: `hasUserReceivedEmail` queries
    the `post_email_recipients` rows of one post, `markEmailSentTo` appends
    a row with no existence check. */
module PostEntity {
  import opened Entities

  /** `hasUserReceivedEmail`: some ledger row pairs this post with this
      user's id. */
  predicate HasUserReceivedEmail(ledger: seq<Recipient>, post: Post, user: User) {
    Recipient(post.id, user.id) in ledger
  }

  /** `markEmailSentTo`: `attach` appends the row unconditionally. */
  function MarkEmailSentTo(ledger: seq<Recipient>, post: Post, user: User): (r: seq<Recipient>)
    ensures HasUserReceivedEmail(r, post, user)
    ensures |r| == |ledger| + 1 && r[..|ledger|] == ledger
    ensures r[|ledger|].postId == post.id && r[|ledger|].userId == user.id
    ensures forall p: Post, u: User :: (p.id, u.id) != (post.id, user.id) ==>
      (HasUserReceivedEmail(r, p, u) <==> HasUserReceivedEmail(ledger, p, u))
  {
    ledger + [Recipient(post.id, user.id)]
  }

  /** `$post->emailedUsers()->count()`: the number of ledger rows of this
      post, repeats included. */
  function RecipientCount(ledger: seq<Recipient>, post: Post): (n: nat)
    ensures n <= |ledger|
    ensures n == 0 <==> forall i :: 0 <= i < |ledger| ==> ledger[i].postId != post.id
    decreases |ledger|
  {
    if ledger == [] then 0
    else RecipientCount(ledger[..|ledger| - 1], post) + (if ledger[|ledger| - 1].postId == post.id then 1 else 0)
  }

  lemma CountAfterMark(ledger: seq<Recipient>, post: Post, user: User)
    ensures RecipientCount(MarkEmailSentTo(ledger, post, user), post) == RecipientCount(ledger, post) + 1
  {
    var r := MarkEmailSentTo(ledger, post, user);
    assert r[..|r| - 1] == ledger;
  }

  /** A post with no ledger rows has no recipients. */
  lemma {:induction false} CountZeroWithoutRows(ledger: seq<Recipient>, post: Post)
    requires forall i :: 0 <= i < |ledger| ==> ledger[i].postId != post.id
    ensures RecipientCount(ledger, post) == 0
    ensures forall u: User :: !HasUserReceivedEmail(ledger, post, u)
    decreases |ledger|
  {
    if ledger != [] {
      CountZeroWithoutRows(ledger[..|ledger| - 1], post);
    }
  }

  /** A post created after every ledger row (its id has reached the
      counter) has received no emails. */
  lemma FreshPostHasNoRecipients(s: Store, post: Post)
    requires Valid(s)
    requires post.id >= s.nextPostId
    ensures RecipientCount(s.recipients, post) == 0
    ensures forall u: User :: !HasUserReceivedEmail(s.recipients, post, u)
  {
    CountZeroWithoutRows(s.recipients, post);
  }

  /** Marking two users of a fresh post tracks both, and the post then has
      exactly two recipients. */
  lemma MarkTwoUsers(s: Store, post: Post, u1: User, u2: User)
    requires Valid(s)
    requires post.id >= s.nextPostId
    ensures var r := MarkEmailSentTo(MarkEmailSentTo(s.recipients, post, u1), post, u2);
      && HasUserReceivedEmail(r, post, u1)
      && HasUserReceivedEmail(r, post, u2)
      && RecipientCount(r, post) == 2
  {
    FreshPostHasNoRecipients(s, post);
    var r1 := MarkEmailSentTo(s.recipients, post, u1);
    CountAfterMark(s.recipients, post, u1);
    CountAfterMark(r1, post, u2);
  }

  /** With no existence check, marking the same user twice leaves two rows
      for the pair. */
  lemma MarkTwiceRepeatsRow(ledger: seq<Recipient>, post: Post, user: User)
    ensures var r := MarkEmailSentTo(MarkEmailSentTo(ledger, post, user), post, user);
      RecipientCount(r, post) == RecipientCount(ledger, post) + 2 && !NoDuplicates(r)
  {
    var r1 := MarkEmailSentTo(ledger, post, user);
    var r := MarkEmailSentTo(r1, post, user);
    CountAfterMark(ledger, post, user);
    CountAfterMark(r1, post, user);
    assert r[|ledger|] == r[|ledger| + 1];
  }
}

=== FILE: post_repository.dfy ===
/** `EloquentPostRepository`: the post table as a map from id to post. */
module PostRepository {
  import opened Wrappers
  import opened Entities

  /** The attributes `create` receives. */
  datatype Attributes = Attributes(title: string, description: string, websiteId: int)

  /** The attributes `update` receives; an absent key leaves the column as
      it was. */
  datatype Patch = Patch(title: Option<string>, description: Option<string>, websiteId: Option<int>)

  datatype Created = Created(store: Store, post: Post)

  function FindById(s: Store, id: int): (r: Option<Post>)
    ensures r.Some? <==> id in s.posts
    ensures r.Some? ==> r.value == s.posts[id]
  {
    if id in s.posts then Some(s.posts[id]) else None
  }

  /** `create`: insert a row under the next auto-increment id. */
  function Create(s: Store, data: Attributes): (r: Created)
    ensures r.post.title == data.title && r.post.description == data.description && r.post.websiteId == data.websiteId
    ensures FindById(r.store, r.post.id) == Some(r.post)
    ensures forall id :: id != r.post.id ==> FindById(r.store, id) == FindById(s, id)
    ensures r.store.nextPostId == s.nextPostId + 1
    ensures r.store.(posts := s.posts, nextPostId := s.nextPostId) == s
  {
    var post := Post(s.nextPostId, data.title, data.description, data.websiteId);
    Created(s.(posts := s.posts[post.id := post], nextPostId := s.nextPostId + 1), post)
  }

  /** The post with each attribute the patch gives replaced, and every
      other attribute, the id included, kept. */
  /** On a valid database the new post takes an unused id, adds exactly
      that key, and the database stays valid. */
  lemma CreatePreservesValid(s: Store, data: Attributes)
    requires Valid(s)
    ensures var c := Create(s, data);
      && c.post.id !in s.posts
      && c.store.posts.Keys == s.posts.Keys + {c.post.id}
      && Valid(c.store)
  {
    var c := Create(s, data);
    assert c.post.id !in s.posts;
    assert c.store.posts.Keys == s.posts.Keys + {c.post.id};
    forall i | 0 <= i < |c.store.recipients| ensures c.store.recipients[i].postId < c.store.nextPostId {
      assert c.store.recipients[i] == s.recipients[i];
    }
  }

  function Apply(post: Post, patch: Patch): (r: Post)
    ensures r.id == post.id
    ensures r.title == (if patch.title.Some? then patch.title.value else post.title)
    ensures r.description == (if patch.description.Some? then patch.description.value else post.description)
    ensures r.websiteId == (if patch.websiteId.Some? then patch.websiteId.value else post.websiteId)
  {
    Post(post.id,
      if patch.title.Some? then patch.title.value else post.title,
      if patch.description.Some? then patch.description.value else post.description,
      if patch.websiteId.Some? then patch.websiteId.value else post.websiteId)
  }

  datatype Updated = Updated(store: Store, post: Post)

  /** `update`: the given attributes replace the stored ones and the same
      post comes back. */
  function Update(s: Store, post: Post, patch: Patch): (r: Updated)
    requires FindById(s, post.id) == Some(post)
    ensures r.post.id == post.id
    ensures patch.title.Some? ==> r.post.title == patch.title.value
    ensures patch.title.None? ==> r.post.title == post.title
    ensures patch.description.Some? ==> r.post.description == patch.description.value
    ensures patch.description.None? ==> r.post.description == post.description
    ensures patch.websiteId.Some? ==> r.post.websiteId == patch.websiteId.value
    ensures patch.websiteId.None? ==> r.post.websiteId == post.websiteId
    ensures FindById(r.store, post.id) == Some(r.post)
    ensures forall id :: id != post.id ==> FindById(r.store, id) == FindById(s, id)
    ensures r.store.(posts := s.posts) == s
  {
    var updated := Apply(post, patch);
    Updated(s.(posts := s.posts[post.id := updated]), updated)
  }

  /** Updating again with the same attributes changes nothing more. */
  lemma UpdateIsIdempotent(s: Store, post: Post, patch: Patch)
    requires FindById(s, post.id) == Some(post)
    ensures var once := Update(s, post, patch);
      Update(once.store, once.post, patch) == once
  {
  }

  /** An update keeps the post under its id, so the database stays valid. */
  lemma UpdatePreservesValid(s: Store, post: Post, patch: Patch)
    requires Valid(s) && FindById(s, post.id) == Some(post)
    ensures Valid(Update(s, post, patch).store)
  {
  }

  datatype Deleted = Deleted(store: Store, deleted: bool)

  /** `delete`: remove the post's row and report success. */
  function Delete(s: Store, post: Post): (r: Deleted)
    requires FindById(s, post.id) == Some(post)
    ensures r.deleted
    ensures FindById(r.store, post.id) == None
    ensures forall id :: id != post.id ==> FindById(r.store, id) == FindById(s, id)
    ensures r.store.(posts := s.posts) == s
  {
    Deleted(s.(posts := s.posts - {post.id}), true)
  }

  /** Deleting a post keeps the database valid; its ledger rows stay and
      still refer to an id that was created. */
  lemma DeletePreservesValid(s: Store, post: Post)
    requires Valid(s) && FindById(s, post.id) == Some(post)
    ensures Valid(Delete(s, post).store)
  {
  }

  /** Deleting a post just created restores the post table: creation
      touched no other row. */
  lemma DeleteUndoesCreate(s: Store, data: Attributes)
    requires Valid(s)
    ensures var c := Create(s, data);
      Delete(c.store, c.post).store.posts == s.posts
  {
    var c := Create(s, data);
    assert s.nextPostId !in s.posts;
    assert c.store.posts - {c.post.id} == s.posts;
  }
}

=== FILE: post_submit_use_case.dfy ===
/** `PostSubmitUseCase::execute`: validate, create the post, dispatch
    `PostPublished`. There is no transaction: the only write is the single
    insert of the post. */
module PostSubmitUseCase {
  import opened Wrappers
  import opened Php
  import opened Entities
  import SubmitPostData
  import PostRepository
  import PostEntity

  /** The store afterwards, the post or the exception, and the posts
      carried by the `PostPublished` events dispatched, in order. */
  datatype Submitted = Submitted(store: Store, result: Result<Post, Failure>, dispatched: seq<Post>)

  function Execute(s: Store, data: Request): (r: Submitted)
    ensures r.result.Failure? <==> SubmitPostData.FromArray(data).Failure?
    ensures r.result.Failure? ==>
      r.result.error == SubmitPostData.FromArray(data).error && r.store == s && r.dispatched == []
    ensures r.result.Success? ==>
      var dto := SubmitPostData.FromArray(data).value;
      && r.result.value.title == dto.title
      && r.result.value.description == dto.description
      && r.result.value.websiteId == dto.websiteId
      && PostRepository.FindById(r.store, r.result.value.id) == Some(r.result.value)
      && r.result.value.id == s.nextPostId
      && r.dispatched == [r.result.value]
      && r.store.(posts := s.posts, nextPostId := s.nextPostId) == s
      && (forall id :: id != r.result.value.id ==> PostRepository.FindById(r.store, id) == PostRepository.FindById(s, id))
  {
    match SubmitPostData.FromArray(data)
    case Failure(e) => Submitted(s, Failure(e), [])
    case Success(dto) =>
      var created := PostRepository.Create(s, PostRepository.Attributes(dto.title, dto.description, dto.websiteId));
      Submitted(created.store, Success(created.post), [created.post])
  }

  /** On a valid database a successful submission adds exactly one post,
      under a fresh id, keeps the database valid, and the new post has no
      ledger rows yet. */
  lemma ExecuteAddsOneFreshPost(s: Store, data: Request)
    requires Valid(s)
    ensures var r := Execute(s, data);
      r.result.Success? ==>
        && r.result.value.id !in s.posts
        && r.store.posts.Keys == s.posts.Keys + {r.result.value.id}
        && |r.store.posts| == |s.posts| + 1
        && Valid(r.store)
        && PostEntity.RecipientCount(r.store.recipients, r.result.value) == 0
  {
    var r := Execute(s, data);
    if r.result.Success? {
      var dto := SubmitPostData.FromArray(data).value;
      var attributes := PostRepository.Attributes(dto.title, dto.description, dto.websiteId);
      PostRepository.CreatePreservesValid(s, attributes);
      assert r.store == PostRepository.Create(s, attributes).store;
      PostEntity.FreshPostHasNoRecipients(s, r.result.value);
    }
  }

  /** The scenario of an empty title: the title message and nothing
      written or dispatched. */
  lemma EmptyTitleIsRejected(s: Store, d: Value, w: Value)
    ensures Execute(s, map["title" := Str(""), "description" := d, "website_id" := w])
      == Submitted(s, Failure(Reject("title", TitleRequired)), [])
  {
  }
}

=== FILE: publication.dfy ===
/** How the pieces meet: a post submitted through `PostSubmitUseCase` is
    handed, through the `PostPublished` event, to the listener's fanout. */
module Publication {
  import opened Php
  import opened Entities
  import PostEntity
  import PostSubmitUseCase
  import Fanout

  /** Recording a fanout for a stored post keeps the database valid. */
  lemma FanoutPreservesValid(s: Store, users: seq<User>, post: Post, accepts: Fanout.Mail -> bool)
    requires Valid(s)
    requires post.id in s.posts
    ensures Valid(s.(recipients := Fanout.Fanout(users, post, s.recipients, accepts).ledger))
  {
    var r := Fanout.Fanout(users, post, s.recipients, accepts);
    var m := Fanout.Marks(post, r.delivered);
    forall i | 0 <= i < |r.ledger| ensures r.ledger[i].postId < s.nextPostId {
      if i >= |s.recipients| {
        assert r.ledger[i] == m[i - |s.recipients|];
      }
    }
  }

  /** For a freshly submitted post and a mailer that never throws, the
      fanout reaches the end of any subscriber list and sends exactly once
      to every listed user id, repeats in the list included. */
  lemma SubmittedPostReachesEveryListedUser(s: Store, data: Request, users: seq<User>, accepts: Fanout.Mail -> bool)
    requires Valid(s)
    requires PostSubmitUseCase.Execute(s, data).result.Success?
    requires forall m :: accepts(m)
    ensures var submitted := PostSubmitUseCase.Execute(s, data);
      var r := Fanout.Fanout(users, submitted.dispatched[0], submitted.store.recipients, accepts);
      && r.halt.Completed?
      && Fanout.DistinctIds(r.delivered)
      && (forall u :: u in users ==> exists d :: d in r.delivered && d.id == u.id)
      && (forall d :: d in r.delivered ==> d in users)
  {
    var submitted := PostSubmitUseCase.Execute(s, data);
    var post := submitted.dispatched[0];
    PostSubmitUseCase.ExecuteAddsOneFreshPost(s, data);
    PostEntity.FreshPostHasNoRecipients(s, post);
    assert submitted.store.recipients == s.recipients;
    Fanout.ReliableMailerCompletes(users, post, s.recipients, accepts);
    Fanout.SendsExactlyToUnrecorded(users, post, s.recipients, accepts);
    Fanout.FanoutIsSound(users, post, s.recipients, accepts);
  }
}

=== FILE: send_post_emails_command.dfy ===
/** `posts:send-emails {post_id}`: look the post up, require its website,
    then dispatch `PostPublished` for it. */
module SendPostEmailsCommand {
  import opened Wrappers
  import opened Php
  import opened Entities
  import PostRepository
  import Fanout

  /** `Command::SUCCESS` and `Command::FAILURE`. */
  const ExitSuccess := 0
  const ExitFailure := 1

  /** A line written by `$this->error` or `$this->info`. */
  datatype Line = Error(text: string) | Info(text: string)

  datatype Outcome = Outcome(exitCode: int, output: seq<Line>, dispatched: seq<Post>)

  /** `Post::find($postId)` with the raw argument: an integer string finds
      the post with that id, anything else finds nothing. */
  function FindByArgument(s: Store, argument: string): (r: Option<Post>)
    ensures r.Some? <==> ParseInt(argument).Some? && ParseInt(argument).value in s.posts
    ensures r.Some? ==> r.value == s.posts[ParseInt(argument).value]
  {
    match ParseInt(argument)
    case None => None
    case Some(id) => PostRepository.FindById(s, id)
  }

  function Handle(s: Store, argument: string): (r: Outcome)
    ensures FindByArgument(s, argument).None? ==>
      r == Outcome(ExitFailure, [Error("Post with ID " + argument + " not found.")], [])
    ensures FindByArgument(s, argument).Some? && FindByArgument(s, argument).value.websiteId !in s.websites ==>
      r == Outcome(ExitFailure, [Error("Website not found for post ID " + argument + ".")], [])
    ensures r.exitCode == ExitSuccess <==>
      FindByArgument(s, argument).Some? && FindByArgument(s, argument).value.websiteId in s.websites
    ensures r.exitCode == ExitSuccess ==>
      var post := FindByArgument(s, argument).value;
      r.dispatched == [post] && r.output == [Info("Email job dispatched for post: " + post.title)]
    ensures r.exitCode != ExitSuccess ==> r.exitCode == ExitFailure && r.dispatched == []
  {
    match FindByArgument(s, argument)
    case None => Outcome(ExitFailure, [Error("Post with ID " + argument + " not found.")], [])
    case Some(post) =>
      if post.websiteId !in s.websites then
        Outcome(ExitFailure, [Error("Website not found for post ID " + argument + ".")], [])
      else
        Outcome(ExitSuccess, [Info("Email job dispatched for post: " + post.title)], [post])
  }

  /** A post the command dispatches always reaches the listener's fanout:
      the listener's "no website" early return cannot happen for it. */
  lemma DispatchedPostHasListenerWebsite(s: Store, argument: string)
    requires Handle(s, argument).exitCode == ExitSuccess
    ensures Fanout.ListenerWebsite(s, Handle(s, argument).dispatched[0]).Some?
  {
  }

  /** The command for an existing post with a website is addressed by the
      post's own id: `php artisan posts:send-emails 7` dispatches post 7. */
  lemma IdArgumentFindsPost(s: Store, post: Post)
    requires post.id in s.posts && s.posts[post.id] == post
    requires post.websiteId in s.websites
    ensures Handle(s, IntToString(post.id)) ==
      Outcome(ExitSuccess, [Info("Email job dispatched for post: " + post.title)], [post])
  {
    ParseIntOfIntToString(post.id);
  }
}

=== FILE: submit_post_data.dfy ===
/** `SubmitPostData::fromArray`: title, then description, then website_id
    must pass PHP's `empty()`; the first failure is the only one reported.
    The typed constructor then coerces the values. */
module SubmitPostData {
  import opened Wrappers
  import opened Php
  import opened Entities

  datatype Dto = Dto(title: string, description: string, websiteId: PhpInt)

  function FromArray(data: Request): (r: Result<Dto, Failure>)
    ensures Empty(Get(data, "title")) ==> r == Failure(Reject("title", TitleRequired))
    ensures !Empty(Get(data, "title")) && Empty(Get(data, "description")) ==>
      r == Failure(Reject("description", DescriptionRequired))
    ensures !Empty(Get(data, "title")) && !Empty(Get(data, "description")) && Empty(Get(data, "website_id")) ==>
      r == Failure(Reject("website_id", WebsiteRequired))
    ensures (!Empty(Get(data, "title")) && !Empty(Get(data, "description")) && !Empty(Get(data, "website_id"))
             && ToIntParam(Get(data, "website_id")).None?) ==>
      r == Failure(TypeError("website_id"))
    ensures r.Success? <==>
      !Empty(Get(data, "title")) && !Empty(Get(data, "description")) && !Empty(Get(data, "website_id"))
      && ToIntParam(Get(data, "website_id")).Some?
    ensures r.Success? ==>
      && r.value.title == CastToString(Get(data, "title"))
      && r.value.description == CastToString(Get(data, "description"))
      && Some(r.value.websiteId) == ToIntParam(Get(data, "website_id"))
    ensures r.Success? ==> r.value.title !in {"", "0"} && r.value.description !in {"", "0"}
  {
    var title := Get(data, "title");
    var description := Get(data, "description");
    var websiteId := Get(data, "website_id");
    if Empty(title) then Failure(Reject("title", TitleRequired))
    else if Empty(description) then Failure(Reject("description", DescriptionRequired))
    else if Empty(websiteId) then Failure(Reject("website_id", WebsiteRequired))
    else match ToIntParam(websiteId)
      case None => Failure(TypeError("website_id"))
      case Some(id) => Success(Dto(CastToString(title), CastToString(description), id))
  }

  /** The request array a DTO is read back from. */
  function ToArray(dto: Dto): Request {
    map["title" := Str(dto.title), "description" := Str(dto.description), "website_id" := Int(dto.websiteId)]
  }

  /** Every DTO with non-empty fields survives the round trip through a
      request array, a negative website id included. */
  lemma FromArrayOfToArray(dto: Dto)
    requires dto.title !in {"", "0"} && dto.description !in {"", "0"} && dto.websiteId != 0
    ensures FromArray(ToArray(dto)) == Success(dto)
  {
  }

  /** A website_id of "00" is not empty to PHP yet coerces to 0, so it
      passes the required check and yields website id 0. */
  lemma ZeroPaddedWebsiteIdPasses()
    ensures FromArray(map["title" := Str("t"), "description" := Str("d"), "website_id" := Str("00")])
      == Success(Dto("t", "d", 0))
  {
    var s := "00";
    assert s[..|s| - 1] == "0";
    assert s[..|s| - 1][..0] == "";
  }

  /** A website_id whose digits name an integer outside the 64-bit range
      passes the required check, but the `int` parameter rejects it. */
  lemma OutOfRangeWebsiteIdIsTypeError(i: int)
    requires i < IntMin || IntMax < i
    ensures FromArray(map["title" := Str("t"), "description" := Str("d"), "website_id" := Str(IntToString(i))])
      == Failure(TypeError("website_id"))
  {
    IntToStringInjective(i, 0);
    assert IntToString(0) == "0";
    OutOfRangeStringIsTypeError(i);
  }

  /** A website_id that is not an integer string is a TypeError from the
      constructor, not a validation message. */
  lemma NonNumericWebsiteIdIsTypeError()
    ensures FromArray(map["title" := Str("t"), "description" := Str("d"), "website_id" := Str("x")])
      == Failure(TypeError("website_id"))
  {
  }
}

=== FILE: subscribe_data.dfy ===
/** `SubscribeData::fromArray`: email must be non-empty, then accepted by
    `filter_var(..., FILTER_VALIDATE_EMAIL)`, then website_id must be
    non-empty. The email filter is a parameter: an opaque library check. */
module SubscribeData {
  import opened Wrappers
  import opened Php
  import opened Entities

  datatype Dto = Dto(email: string, websiteId: PhpInt)

  function FromArray(data: Request, isEmail: string -> bool): (r: Result<Dto, Failure>)
    ensures Empty(Get(data, "email")) ==> r == Failure(Reject("email", EmailRequired))
    ensures !Empty(Get(data, "email")) && !isEmail(CastToString(Get(data, "email"))) ==>
      r == Failure(Reject("email", EmailInvalid))
    ensures !Empty(Get(data, "email")) && isEmail(CastToString(Get(data, "email"))) && Empty(Get(data, "website_id")) ==>
      r == Failure(Reject("website_id", WebsiteRequired))
    ensures (!Empty(Get(data, "email")) && isEmail(CastToString(Get(data, "email"))) && !Empty(Get(data, "website_id"))
             && ToIntParam(Get(data, "website_id")).None?) ==>
      r == Failure(TypeError("website_id"))
    ensures r.Success? <==>
      !Empty(Get(data, "email")) && isEmail(CastToString(Get(data, "email")))
      && !Empty(Get(data, "website_id")) && ToIntParam(Get(data, "website_id")).Some?
    ensures r.Success? ==>
      && r.value.email == CastToString(Get(data, "email"))
      && isEmail(r.value.email)
      && Some(r.value.websiteId) == ToIntParam(Get(data, "website_id"))
  {
    var email := Get(data, "email");
    var websiteId := Get(data, "website_id");
    if Empty(email) then Failure(Reject("email", EmailRequired))
    else if !isEmail(CastToString(email)) then Failure(Reject("email", EmailInvalid))
    else if Empty(websiteId) then Failure(Reject("website_id", WebsiteRequired))
    else match ToIntParam(websiteId)
      case None => Failure(TypeError("website_id"))
      case Some(id) => Success(Dto(CastToString(email), id))
  }

  function ToArray(dto: Dto): Request {
    map["email" := Str(dto.email), "website_id" := Int(dto.websiteId)]
  }

  /** A DTO with an accepted email and a non-zero website id survives the
      round trip through a request array. */
  lemma FromArrayOfToArray(dto: Dto, isEmail: string -> bool)
    requires dto.email !in {"", "0"} && isEmail(dto.email) && dto.websiteId != 0
    ensures FromArray(ToArray(dto), isEmail) == Success(dto)
  {
  }

  /** An accepted email with a website_id whose digits name an integer
      outside the 64-bit range is a TypeError from the constructor. */
  lemma OutOfRangeWebsiteIdIsTypeError(isEmail: string -> bool, i: int)
    requires isEmail("user@example.com")
    requires i < IntMin || IntMax < i
    ensures FromArray(map["email" := Str("user@example.com"), "website_id" := Str(IntToString(i))], isEmail)
      == Failure(TypeError("website_id"))
  {
    IntToStringInjective(i, 0);
    assert IntToString(0) == "0";
    OutOfRangeStringIsTypeError(i);
  }

  /** Any email filter that demands an `@` rejects "invalid-email" with
      the "must be valid" message, before website_id is looked at. */
  lemma AddressWithoutAtIsRejected(isEmail: string -> bool, websiteId: Value)
    requires forall s :: isEmail(s) ==> '@' in s
    ensures FromArray(map["email" := Str("invalid-email"), "website_id" := websiteId], isEmail)
      == Failure(Reject("email", EmailInvalid))
  {
    assert !isEmail("invalid-email");
  }
}

=== FILE: subscribe_use_case.dfy ===
/** `SubscribeUseCase::execute`: validate, look the website up, then inside
    a transaction find or create the user, refuse an existing subscription
    and subscribe. */
module SubscribeUseCase {
  import opened Wrappers
  import opened Php
  import opened Entities
  import SubscribeData
  import UserRepository
  import SubscriptionRepository

  datatype SubscriptionResult = SubscriptionResult(user: User, website: Website)

  datatype Subscribed = Subscribed(store: Store, result: Result<SubscriptionResult, Failure>)

  /** The transactional callback, run on the store after the website
      lookup; its writes survive only if it returns. */
  function Callback(s: Store, email: string, website: Website): (r: Subscribed)
    ensures var found := UserRepository.FindOrCreate(s, email);
      && (r.result.Failure? <==> SubscriptionRepository.IsSubscribed(found.store, found.user, website))
      && (r.result.Failure? ==> r.result.error == Reject("email", AlreadySubscribed))
      && (r.result.Success? ==>
            r.result.value == SubscriptionResult(found.user, website)
            && r.store == SubscriptionRepository.Subscribe(found.store, found.user, website))
  {
    var found := UserRepository.FindOrCreate(s, email);
    if SubscriptionRepository.IsSubscribed(found.store, found.user, website) then
      Subscribed(found.store, Failure(Reject("email", AlreadySubscribed)))
    else
      Subscribed(SubscriptionRepository.Subscribe(found.store, found.user, website),
        Success(SubscriptionResult(found.user, website)))
  }

  function Execute(s: Store, data: Request, isEmail: string -> bool): (r: Subscribed)
    ensures r.result.Failure? ==> r.store == s
    ensures SubscribeData.FromArray(data, isEmail).Failure? ==>
      r.result == Failure(SubscribeData.FromArray(data, isEmail).error)
    ensures SubscribeData.FromArray(data, isEmail).Success? ==>
      var dto := SubscribeData.FromArray(data, isEmail).value;
      && (dto.websiteId !in s.websites ==> r.result == Failure(Reject("website_id", WebsiteNotFound)))
      && (dto.websiteId in s.websites ==>
            var found := UserRepository.FindOrCreate(s, dto.email);
            var website := s.websites[dto.websiteId];
            && (SubscriptionRepository.IsSubscribed(found.store, found.user, website) ==>
                  r.result == Failure(Reject("email", AlreadySubscribed)))
            && (!SubscriptionRepository.IsSubscribed(found.store, found.user, website) ==>
                  && r.result == Success(SubscriptionResult(found.user, website))
                  && r.store.subscriptions == s.subscriptions + [Subscription(website.id, found.user.id)]
                  && r.store.users == found.store.users))
    ensures r.result.Success? ==>
      && SubscriptionRepository.IsSubscribed(r.store, r.result.value.user, r.result.value.website)
      && !SubscriptionRepository.IsSubscribed(s, r.result.value.user, r.result.value.website)
      && r.store.(subscriptions := s.subscriptions, users := s.users, nextUserId := s.nextUserId) == s
  {
    match SubscribeData.FromArray(data, isEmail)
    case Failure(e) => Subscribed(s, Failure(e))
    case Success(dto) =>
      if dto.websiteId !in s.websites then Subscribed(s, Failure(Reject("website_id", WebsiteNotFound)))
      else
        var attempt := Callback(s, dto.email, s.websites[dto.websiteId]);
        Subscribed(Commit(s, attempt.store, attempt.result), attempt.result)
  }

  /** A successful subscription keeps the database valid: in particular
      the guard keeps the `subscribers` pivot free of repeated rows, which
      the repository alone does not. */
  lemma ExecutePreservesValid(s: Store, data: Request, isEmail: string -> bool)
    requires Valid(s)
    ensures Valid(Execute(s, data, isEmail).store)
  {
    var r := Execute(s, data, isEmail);
    if r.result.Success? {
      var dto := SubscribeData.FromArray(data, isEmail).value;
      var found := UserRepository.FindOrCreate(s, dto.email);
      var website := s.websites[dto.websiteId];
      UserRepository.FindOrCreatePreservesValid(s, dto.email);
      SubscriptionRepository.SubscribeFreshPairKeepsNoDuplicates(found.store, found.user, website);
    }
  }

  /** Repeating a successful request fails with "Already subscribed" and
      changes nothing. */
  lemma RepeatIsAlreadySubscribed(s: Store, data: Request, isEmail: string -> bool)
    requires Valid(s)
    requires Execute(s, data, isEmail).result.Success?
    ensures var again := Execute(Execute(s, data, isEmail).store, data, isEmail);
      again.result == Failure(Reject("email", AlreadySubscribed))
      && again.store == Execute(s, data, isEmail).store
  {
    var r := Execute(s, data, isEmail);
    var dto := SubscribeData.FromArray(data, isEmail).value;
    var found := UserRepository.FindOrCreate(s, dto.email);
    var website := s.websites[dto.websiteId];
    UserRepository.FindOrCreatePreservesValid(s, dto.email);
    assert r.store.users[dto.email] == found.user;
    assert SubscriptionRepository.IsSubscribed(r.store, found.user, website);
  }

  /** On a valid database a new email is never "already subscribed":
      that outcome, whose callback is rolled back, only arises for an
      existing user, so the rollback discards no created user. */
  lemma NewUserIsNeverAlreadySubscribed(s: Store, data: Request, isEmail: string -> bool)
    requires Valid(s)
    requires SubscribeData.FromArray(data, isEmail).Success?
    requires SubscribeData.FromArray(data, isEmail).value.email !in s.users
    ensures Execute(s, data, isEmail).result != Failure(Reject("email", AlreadySubscribed))
  {
    var dto := SubscribeData.FromArray(data, isEmail).value;
    if dto.websiteId in s.websites {
      var found := UserRepository.FindOrCreate(s, dto.email);
      var website := s.websites[dto.websiteId];
      assert Subscription(website.id, found.user.id) !in s.subscriptions by {
        forall i | 0 <= i < |s.subscriptions|
          ensures s.subscriptions[i] != Subscription(website.id, found.user.id)
        {
          assert s.subscriptions[i].userId < s.nextUserId;
        }
      }
    }
  }
}

=== FILE: subscriber_cache.dfy ===
/** The cache the listener reads the subscriber list through:
    `Cache::remember("website_{id}_users", 60, ...)`. Expiry is not
    modelled (there is no clock): an entry once stored is a hit. */
module SubscriberCache {
  import opened Wrappers
  import opened Php
  import opened Entities

  /** Time to live, in seconds, of a subscriber list entry. */
  const Ttl: nat := 60

  /** The cache key of a website's subscriber list. */
  function Key(websiteId: int): (key: string)
    ensures |key| > 14 && key[..8] == "website_" && key[|key| - 6..] == "_users"
    ensures key[8..|key| - 6] == IntToString(websiteId)
    ensures ParseInt(key[8..|key| - 6]) == Some(websiteId)
  {
    var key := "website_" + IntToString(websiteId) + "_users";
    assert key[8..|key| - 6] == IntToString(websiteId);
    ParseIntOfIntToString(websiteId);
    key
  }

  /** The website a subscriber-list key belongs to. */
  function KeyWebsite(key: string): Option<int> {
    if |key| >= 14 && key[..8] == "website_" && key[|key| - 6..] == "_users" then ParseInt(key[8..|key| - 6])
    else None
  }

  lemma KeyWebsiteOfKey(websiteId: int)
    ensures KeyWebsite(Key(websiteId)) == Some(websiteId)
  {
    var digits := IntToString(websiteId);
    var key := Key(websiteId);
    assert key[..8] == "website_";
    assert key[|key| - 6..] == "_users";
    assert key[8..|key| - 6] == digits;
    ParseIntOfIntToString(websiteId);
  }

  /** Two websites never share a cached subscriber list. */
  lemma KeysAreDistinct(a: int, b: int)
    requires a != b
    ensures Key(a) != Key(b)
  {
    KeyWebsiteOfKey(a);
    KeyWebsiteOfKey(b);
  }

  datatype Entry = Entry(users: seq<User>, ttl: nat)

  datatype Cache = Cache(entries: map<string, Entry>)

  datatype Lookup = Lookup(users: seq<User>, cache: Cache)

  /** `remember`: a hit returns the stored list and leaves the cache alone;
      a miss returns the freshly computed list and stores it. */
  function Remember(c: Cache, key: string, ttl: nat, compute: seq<User>): (r: Lookup)
    ensures key in r.cache.entries && r.cache.entries[key].users == r.users
    ensures forall k :: k != key ==> (k in r.cache.entries <==> k in c.entries)
    ensures forall k :: k != key && k in c.entries ==> r.cache.entries[k] == c.entries[k]
    ensures key in c.entries ==> r == Lookup(c.entries[key].users, c)
    ensures key !in c.entries ==> r.users == compute && r.cache.entries[key].ttl == ttl
  {
    if key in c.entries then Lookup(c.entries[key].users, c)
    else Lookup(compute, Cache(c.entries[key := Entry(compute, ttl)]))
  }

  /** Two reads of the same key within the entry's lifetime return the
      same list, however the subscriptions changed in between, and the
      second writes nothing. With no clock, every pair of reads here is
      within that lifetime. */
  lemma RememberIsStable(c: Cache, key: string, ttl: nat, first: seq<User>, second: seq<User>)
    ensures var r1 := Remember(c, key, ttl, first);
      Remember(r1.cache, key, ttl, second) == r1
  {
  }
}

=== FILE: subscription_repository.dfy ===
/** `EloquentSubscriptionRepository`: membership in, and unguarded
    insertion into, the `subscribers` pivot. */
module SubscriptionRepository {
  import opened Entities

  /** `isSubscribed`: the website's subscriber relation has a row for this
      user's id. */
  predicate IsSubscribed(s: Store, user: User, website: Website) {
    Subscription(website.id, user.id) in s.subscriptions
  }

  /** `subscribe`: `attach` appends a row without checking membership. */
  function Subscribe(s: Store, user: User, website: Website): (r: Store)
    ensures IsSubscribed(r, user, website)
    ensures forall w: Website :: w.id != website.id ==> (IsSubscribed(r, user, w) <==> IsSubscribed(s, user, w))
    ensures forall u: User, w: Website :: u.id != user.id ==> (IsSubscribed(r, u, w) <==> IsSubscribed(s, u, w))
    ensures |r.subscriptions| == |s.subscriptions| + 1 && r.subscriptions[..|s.subscriptions|] == s.subscriptions
    ensures r.(subscriptions := s.subscriptions) == s
  {
    s.(subscriptions := s.subscriptions + [Subscription(website.id, user.id)])
  }

  /** A store where nobody subscribed has no subscriber. */
  lemma NeverAttachedIsNotSubscribed(s: Store, user: User, website: Website)
    requires forall i :: 0 <= i < |s.subscriptions| ==> s.subscriptions[i].websiteId != website.id
    ensures !IsSubscribed(s, user, website)
  {
  }

  /** The repository does not guard: subscribing twice repeats the row, so
      the duplicate check is the caller's job. */
  lemma SubscribeTwiceRepeatsRow(s: Store, user: User, website: Website)
    ensures !NoDuplicates(Subscribe(Subscribe(s, user, website), user, website).subscriptions)
  {
    var r := Subscribe(Subscribe(s, user, website), user, website).subscriptions;
    assert r[|s.subscriptions|] == r[|s.subscriptions| + 1];
  }

  /** Subscribing a pair that is not yet present keeps the pivot free of
      repeated rows. */
  lemma SubscribeFreshPairKeepsNoDuplicates(s: Store, user: User, website: Website)
    requires NoDuplicates(s.subscriptions)
    requires !IsSubscribed(s, user, website)
    ensures NoDuplicates(Subscribe(s, user, website).subscriptions)
  {
    var r := Subscribe(s, user, website).subscriptions;
    forall i, j | 0 <= i < j < |r| ensures r[i] != r[j] {
      if j == |s.subscriptions| {
        assert r[i] == s.subscriptions[i];
      }
    }
  }
}

=== FILE: user_repository.dfy ===
/** `EloquentUserRepository::findOrCreate`: `firstOrCreate` keyed by email,
    naming a new user after the part of the email before the first `@`. */
module UserRepository {
  import opened Php
  import opened Entities

  /** `explode('@', $email)[0]`. */
  function NameFromEmail(email: string): string {
    BeforeFirst('@', email)
  }

  datatype Found = Found(store: Store, user: User)

  function FindOrCreate(s: Store, email: string): (r: Found)
    ensures email in r.store.users && r.store.users[email] == r.user
    ensures email in s.users ==> r.user == s.users[email] && r.store == s
    ensures email !in s.users ==>
      && r.user.id == s.nextUserId
      && r.user.email == email
      && r.user.name == NameFromEmail(email)
      && r.store.users.Keys == s.users.Keys + {email}
      && (forall e :: e in s.users ==> r.store.users[e] == s.users[e])
      && r.store.(users := s.users, nextUserId := s.nextUserId) == s
  {
    if email in s.users then Found(s, s.users[email])
    else
      var user := User(s.nextUserId, email, NameFromEmail(email));
      Found(s.(users := s.users[email := user], nextUserId := s.nextUserId + 1), user)
  }

  /** A second call with the same email returns the same user and changes
      nothing, so exactly one user has that email. */
  lemma FindOrCreateIsIdempotent(s: Store, email: string)
    ensures var first := FindOrCreate(s, email);
      var second := FindOrCreate(first.store, email);
      second.user.id == first.user.id && second.store == first.store
  {
  }

  /** The invariants of the database survive, in particular the uniqueness
      of user ids, and the returned user is stored under its id bound. */
  lemma FindOrCreatePreservesValid(s: Store, email: string)
    requires Valid(s)
    ensures Valid(FindOrCreate(s, email).store)
    ensures FindOrCreate(s, email).user.email == email
    ensures FindOrCreate(s, email).user.id < FindOrCreate(s, email).store.nextUserId
  {
    var r := FindOrCreate(s, email);
    if email !in s.users {
      forall e1, e2 | e1 in r.store.users && e2 in r.store.users && e1 != e2
        ensures r.store.users[e1].id != r.store.users[e2].id
      {
        if e1 == email {
          assert r.store.users[e2].id < s.nextUserId;
        } else if e2 == email {
          assert r.store.users[e1].id < s.nextUserId;
        }
      }
    }
  }

  /** The name derived for `bob@example.com` is `bob`. */
  lemma NameOfExampleAddress()
    ensures NameFromEmail("bob@example.com") == "bob"
  {
    BeforeFirstIsUnique('@', "bob@example.com", "bob");
  }

  /** An email with no `@` names the user after the whole string. */
  lemma NameWithoutAtIsWholeEmail(email: string)
    requires '@' !in email
    ensures NameFromEmail(email) == email
  {
    BeforeFirstIsUnique('@', email, email);
  }
}

=== FILE: wrappers.dfy ===
/** Optional values and success/failure results, used for PHP's nullable
    returns and thrown exceptions. */
module Wrappers {

  datatype Option<+T> = None | Some(value: T)

  /** `Failure` stands for an exception that propagates out of the call. */
  datatype Result<+R, +E> = Success(value: R) | Failure(error: E)
}
